=== FILE: README.md ===
# A verified model of a small git: loose objects, trees and commits

This project models the core of a minimal git in Rust. The program is a
command-line tool with six subcommands:

- `cat-file -p` prints a blob.
- `hash-object [-w]` hashes a file as a blob and can store it.
- `write-tree` stores the working directory as tree objects.
- `ls-tree [--name-only]` lists a tree.
- `commit-tree` stores a commit.
- `init` sets up the repository (not modelled here).

Everything is stated over byte sequences. The pieces, with their Dafny modules:

- **Objects.** A loose object is stored as `"<kind> <decimal size>\0<payload>"`, under `.git/objects/<2 hex>/<38 hex>`.
  - `Objects` holds the codec and the `Object::read` header parse.
  - `Store` holds the object store: a map from paths to decompressed file contents. Its class `ObjectStore` is updated in place, with the shared `temporary` staging file and the fan-out directories.
- **Hashing writer** (`HashObject`). The writer sits in front of a sink and hashes exactly what the sink accepts.
  - Classes `Sink`, `Hasher` and `HashWriter`. Their methods change fields.
  - `write_all` is a loop proved against the pure `WriteAllRun`.
  - `write_blob` and `invoke` are built on top of it.
- **cat-file** (`CatFile`). It is a pure function of the files, related to `Object::read` by `AgreesWithRead`.
- **Tree ordering** (`TreeEntries`).
  - A directory is an inductive `Entry` datatype.
  - The comparator is git's name order. A directory's name compares as if followed by `/`, and a file name that runs out sorts first.
  - `sort_unstable_by` is a functional insertion sort. A sorted permutation of well-named entries is unique, so no sort choice changes the result.
- **write-tree** (`WriteTree`). The specification functions are `RecordOf`, `Records`, `TreePayload` and `TreeHash`. The mutually recursive methods `WriteTreeFor`, its loop `WriteRecords`, and `WriteEntry` change the store and are proved equal to them.
- **ls-tree** (`LsTree`).
  - `NextRecord` is one turn of the reading loop.
  - `Listing` is the output and the status.
  - `Invoke` is the loop itself, proved equal to `Run`.
  - Parsing inverts write-tree's serialisation.
- **commit-tree** (`CommitTree`).
  - The text is built line by line (`BuildCommit`) and proved equal to `CommitText`.
  - Its layout is proved line by line (`PayloadLines`).
  - `WriteCommit` stores it.

Rust panics (`expect`, slicing a `&str` out of range or off a character
boundary) are the error `Panic`. Every `anyhow` error is a `Result` error
value. A command's printed output and final status form an `Outcome`.

`src/main.rs` holds older inlined copies of cat-file (60-110), `write_blob`
(112-131), the hash-object branch (133-147) and `HashWriter` (156-174). They
behave like `src/commands/cat_file.rs` and `src/commands/hash_object.rs`, so
each is modelled once. Some rows below cite the `src/main.rs` copy.

## Model

| member | source | states |
|---|---|---|
| Bytes.FirstIndex | src/objects.rs:39-40 | `read_until(0)` stops at the first NUL: the index holds NUL and nothing before it does; none iff no NUL |
| Bytes.ParseU64 | src/objects.rs:55-57 | parses iff the text, less one optional leading '+', is a non-empty run of decimal digits whose value is below 2^64, and then yields that value |
| Bytes.ParseDecimal | src/objects.rs:55-57 | parsing the decimal rendering of any u64 gives it back, with or without a leading '+' |
| Bytes.ParseRejectsSpace | src/objects.rs:46-57 | a size text containing a space (a second separator) never parses |
| Bytes.DecimalValue | src/commands/hash_object.rs:21 | the digits `{}` writes for a length denote that length |
| Bytes.HexRoundTrip | src/commands/ls_tree.rs:45 | `hex::encode` is inverted by hex decoding |
| Bytes.HexInjective | src/commands/hash_object.rs:27 | distinct digests print as distinct hex strings |
| Objects.KindName | src/objects.rs:15-23 | each kind displays as a non-empty ASCII name without space or NUL |
| Objects.KindNameRoundTrip | src/objects.rs:49-54 | matching a kind's displayed name gives that kind, and no other name gives it |
| Objects.SplitHeader | src/objects.rs:39-48 | panics iff there is no NUL; otherwise a header (the bytes before the first NUL) that is not UTF-8 is that error, and a UTF-8 header without a space is that error; on success the stream is kind-text, space, size-text, NUL, rest, with the kind text free of spaces and the header valid UTF-8 |
| Objects.SplitHeaderOf | src/objects.rs:39-48 | a stream laid out as such a header plus anything splits exactly at that header |
| Objects.Decode | src/objects.rs:38-65 | panics iff there is no NUL; succeeds iff the header splits, names a known kind and has a size that parses; each failure is the error of the first step that fails (header, then kind, then size); a decoded object has the header's kind and size and a payload that is the prefix of what follows the NUL whose length is the smaller of the size and what is there, as `take(size)` yields |
| Objects.DecodeEncode | src/objects.rs:38-65 | decoding the serialized form of (kind, payload), with any trailing bytes, gives back that kind, the payload length and exactly the payload |
| Objects.DecodeRejectsSecondSpace | src/objects.rs:46-57 | a header with a second space (kind, space, text, space, text) is rejected, as an invalid size when the kind is known |
| Objects.BlobStream | src/main.rs:123-124 | the literal "blob ", the decimal length, NUL and the content are the serialized blob |
| Objects.ObjectPath | src/objects.rs:34 | `.git/objects/<hash[..2]>/<hash[2..]>`; a panic iff the hash is under 2 bytes or byte 2 is inside a UTF-8 sequence |
| Objects.ObjectPathInjective | src/objects.rs:34 | two hashes with the same path are equal |
| Objects.DigestPathInjective | src/commands/hash_object.rs:39 | distinct digests are stored under distinct paths |
| Store.OpenObject | src/objects.rs:34-35 | opening succeeds iff the path can be formed and holds a file, and yields that file's contents; a bad hash panics |
| Store.ReadStored | src/objects.rs:32-66 | an object stored at its digest's path reads back with its kind, size and payload |
| Store.ObjectStore.SetTemporary | src/commands/hash_object.rs:34 | `File::create("temporary")` and what is written to it: only the staging file changes |
| Store.ObjectStore.MoveIntoObjects | src/commands/hash_object.rs:37-40 | the fan-out directory is added and the staged bytes move to the hash's path, the staging file disappearing |
| Store.ObjectStore.Put | src/commands/write_tree.rs:76-89 | storing (kind, payload) returns SHA-1 of the serialized form and leaves exactly that form at the digest's path; every other file except the staging file keeps its contents, new files are only the staging file or object paths, every object path written holds bytes whose SHA-1 is that path's digest, and the only directories added are fan-out directories |
| HashObject.HashWriter.constructor | src/commands/hash_object.rs:16-19 | a fresh hasher that has seen nothing, in front of the given sink |
| HashObject.HashWriter.Write | src/commands/hash_object.rs:60-64 | returns the sink's count n and hashes exactly `buf[..n]`; on a sink error nothing is hashed and nothing accepted; hashed bytes stay equal to the bytes the sink accepted |
| HashObject.HashWriter.Flush | src/commands/hash_object.rs:66-68 | delegates to the sink; hasher and accepted bytes untouched |
| HashObject.HashWriter.WriteAll | src/commands/hash_object.rs:20-24 | the loop of `write_all` hashes the prefix the device took, all of the buffer on success, and ends as `WriteAllRun` says |
| HashObject.WriteAllRun | src/commands/hash_object.rs:24 | `write_all` succeeds iff every byte was taken; never more than the buffer |
| HashObject.WellBehavedDeviceTakesAll | src/commands/hash_object.rs:24 | a device that never fails and never takes 0 bytes receives everything, however it splits the writes |
| HashObject.EmptyScriptTakesAll | src/main.rs:146 | `io::sink()` takes every byte |
| HashObject.WriteBlob | src/commands/hash_object.rs:10-28 | an unstat-able file is an error; success returns the hex SHA-1 of the serialized blob, which is also exactly what the sink received; with a sink that takes everything it succeeds |
| HashObject.Invoke | src/commands/hash_object.rs:30-44 | the printed hash is the hex SHA-1 of the blob; with `-w` the blob is at its digest's path and its fan-out directory exists; with `-w` and a failed write the staging file exists, no directory is created and no other file changes; without `-w` the store is unchanged and the command succeeds iff the file exists; an existing file with a device that takes every write always succeeds |
| CatFile.Invoke | src/commands/cat_file.rs:11-61 | without `-p` nothing is opened and the command fails; nothing is printed and nothing succeeds unless the object opens |
| CatFile.AgreesWithRead | src/main.rs:60-110 | prints exactly the size-capped payload `Object::read` yields for a blob; succeeds iff that is as long as declared; another kind, or an unreadable object, prints nothing and fails |
| CatFile.PrintsStoredBlob | src/commands/cat_file.rs:44-56 | a stored blob is printed in full and succeeds, whatever bytes follow it |
| CatFile.ReportsShortBlob | src/main.rs:100-107 | a blob stream shorter than its declared size is printed as far as it goes, then reported as a size mismatch |
| TreeEntries.CmpBytesReverse | src/commands/write_tree.rs:28 | slice comparison is antisymmetric |
| TreeEntries.CmpBytesEqual | src/commands/write_tree.rs:28 | slice comparison is Equal iff the slices are equal |
| TreeEntries.CmpBytesTransitive | src/commands/write_tree.rs:28 | slice comparison is transitive |
| TreeEntries.CompareReverse | src/commands/write_tree.rs:20-51 | the comparator is antisymmetric |
| TreeEntries.CompareAtDifference | src/commands/write_tree.rs:27-31 | names that differ inside their common prefix compare by the first differing byte |
| TreeEntries.CompareEqual | src/commands/write_tree.rs:32-34 | for names without '/', Equal iff the names are equal, whatever the entries' types |
| TreeEntries.CompareRunsOut | src/commands/write_tree.rs:35-50 | a file whose name is a proper prefix sorts first; a directory competes as '/' against the next byte |
| TreeEntries.CompareIsKeyOrder | src/commands/write_tree.rs:20-51 | for distinct names without '/', the comparator is byte order on name plus "/" for directories |
| TreeEntries.CompareTransitive | src/commands/write_tree.rs:20-51 | for names without '/' it is transitive, provided the outer two names differ |
| TreeEntries.SortEntries | src/commands/write_tree.rs:20 | sorting permutes the entries |
| TreeEntries.SortSorted | src/commands/write_tree.rs:20-51 | entries of a directory (distinct names without '/' or NUL) come out strictly ascending |
| TreeEntries.SortedUnique | src/commands/write_tree.rs:20 | two strictly sorted permutations of the same entries are equal, so an unstable sort cannot reorder anything |
| TreeEntries.SortIgnoresListingOrder | src/commands/write_tree.rs:13-20 | the order `read_dir` lists entries in does not change the sorted result |
| WriteTree.PayloadLength | src/commands/write_tree.rs:91-95 | every record adds at least 22 bytes, and the payload is empty iff there are no records |
| WriteTree.ModeOf | src/commands/write_tree.rs:58-67 | "40000" iff a directory, "120000" iff a symlink, "100755" iff a regular file with an 0o111 bit set, "100644" otherwise; ASCII, 5 or 6 bytes, no space or NUL |
| WriteTree.RecordsEmpty | src/commands/write_tree.rs:53-96 | no record is written iff every entry is skipped |
| WriteTree.TreeHashNone | src/commands/write_tree.rs:98-99 | a directory yields no tree iff each entry is ".git" or a directory that yields no tree |
| WriteTree.TreeHashIgnoresListingOrder | src/commands/write_tree.rs:13-20 | payload and hash do not depend on the order the directory is listed in |
| WriteTree.WriteEntry | src/commands/write_tree.rs:54-95 | one turn of the loop returns the entry's record (none for ".git" or an empty directory), whose object is then stored: the serialized blob of a file's content or the serialized tree of a directory's payload, at the path of its hash, whose SHA-1 it has; other files keep their contents, only object paths and the staging file are added, and only fan-out directories are created |
| WriteTree.WriteRecords | src/commands/write_tree.rs:53-96 | the loop appends, in order, the record of every kept entry: the result is the payload of the listing's records, and each record's hash names a stored file whose SHA-1 is that hash; other files keep their contents, only object paths and the staging file are added, and only fan-out directories are created |
| WriteTree.WriteTreeFor | src/commands/write_tree.rs:9-111 | returns `TreeHash`; a tree is stored at its digest's path with the sorted records as payload; every record's hash names a stored file whose SHA-1 is that hash; only the staging file is ever removed; every object path written holds bytes whose SHA-1 is its digest; every file that is neither the staging file nor an object path keeps its contents, and the only directories created are fan-out directories |
| WriteTree.Invoke | src/commands/write_tree.rs:113-121 | an empty root is an error; otherwise prints the hex root tree hash, and that tree reads back as a Tree whose size is its payload length; every record's hash names a stored file whose SHA-1 is that hash, every object path written holds such bytes, only the staging file may disappear, every other non-object file keeps its contents, and only fan-out directories are created |
| LsTree.NextRecord | src/commands/ls_tree.rs:17-37 | the reader is empty iff the listing ends; a truncated entry iff input remains but no NUL follows or fewer than 20 bytes follow it; an entry without a name iff the text before the NUL has no space; otherwise the input is exactly mode, space, name, NUL, 20-byte hash and the rest, with no space or NUL in the mode and no NUL in the name |
| LsTree.NextRecordOfRecord | src/commands/ls_tree.rs:17-37 | a record serialised as write-tree does is read back as its mode, name and hash, leaving the reader right after it |
| LsTree.ParsePayload | src/commands/ls_tree.rs:16-37 | parsing a tree payload recovers its records in order |
| LsTree.PadMode | src/commands/ls_tree.rs:48 | `{mode:0>6}` ends with the mode, is preceded only by '0's, and is max(6, chars of mode) characters wide |
| LsTree.PaddedModes | src/commands/ls_tree.rs:48 | write-tree's modes print 6 wide: "40000" as "040000", the others unchanged |
| LsTree.NameListing | src/commands/ls_tree.rs:39-54 | the name-only listing prints each name plus "\n" in payload order and succeeds; a trailing fragment without NUL, or a cut hash, prints the earlier names then fails |
| LsTree.FullListing | src/commands/ls_tree.rs:43-54 | the full listing prints "mode kind hex name\n" per record in order when modes are UTF-8 and objects readable |
| LsTree.OnlyTreesAreListed | src/commands/ls_tree.rs:57 | a stored blob or commit is refused without output |
| LsTree.ListsWrittenTree | src/commands/ls_tree.rs:16-54 | `ls-tree --name-only` of a tree write-tree stored lists the kept names in git's order |
| LsTree.Invoke | src/commands/ls_tree.rs:8-61 | the reading loop prints and ends exactly as `Run` says |
| CommitTree.ResolveIdentity | src/commands/commit_tree.rs:18-32 | NAME/EMAIL are used iff both are set; a non-UTF-8 one is an error naming it (NAME checked first); otherwise the built-in identity |
| CommitTree.LinesAfterUnlines | src/commands/commit_tree.rs:14-43 | lines written with `writeln!`, followed by anything, are cut back into those lines followed by the cut of what follows |
| CommitTree.LinesOfUnlines | src/commands/commit_tree.rs:14-43 | lines written with `writeln!` are recovered by cutting at newlines |
| CommitTree.UnlinesOfLines | src/commands/commit_tree.rs:14-43 | text that is empty or ends in a newline is rewritten exactly by `writeln!` of its lines, which contain no newline |
| CommitTree.PayloadFrame | src/commands/commit_tree.rs:14-43 | the payload starts "tree <hash>\n" with the hash verbatim and ends "\n\n<message>\n" |
| CommitTree.HeaderLayout | src/commands/commit_tree.rs:14-41 | the header lines are "tree <hash>", a line starting "parent " iff a parent is given (then holding it), and author and committer lines with the same identity, seconds and "+0000"; three lines without a parent, four with one |
| CommitTree.PayloadLines | src/commands/commit_tree.rs:14-43 | cut at newlines, the payload is the header lines, an empty line and the lines of the message; a message without a newline is exactly one final line |
| CommitTree.CommitText | src/commands/commit_tree.rs:7-43 | fails iff the identity fails or the clock is before the epoch; the identity is checked first, so its error wins when both fail; otherwise the payload above |
| CommitTree.BuildCommit | src/commands/commit_tree.rs:13-43 | the successive `writeln!`s build exactly `CommitText` |
| CommitTree.WriteCommit | src/commands/commit_tree.rs:44-50 | on error the store is untouched; otherwise the commit is stored at its digest's path and reads back as a Commit whose size is the text's length |
| CommitTree.Invoke | src/commands/commit_tree.rs:53-64 | fails iff the text cannot be built, and then the store is untouched; otherwise the commit object is stored at its digest's path (the staging file gone, its fan-out directory added), reads back as a Commit of the text's length, and its hex digest is printed |

## Left out

- zlib compression is left out: files hold the decompressed stream, and the encoder's `finish` is a sink flush.
- SHA-1 is an uninterpreted function from bytes to 20-byte digests. Nothing about collisions is assumed or proved. What is proved instead is integrity: every object path written holds bytes whose SHA-1 is the path's digest, so an object already stored stays an object with that digest through later stores, even if a later store rewrites its path.
- Filesystem failures are not modelled. These are `read_dir`, `metadata`, `File::create`, `create_dir_all`, `rename` and stat. A directory is an `Entry` value. A file that cannot be stat'ed is hash-object's `None` input.
- Store.ObjectStore.MoveIntoObjects: requires that the staging file exists and the hash can be sliced. That holds at every call site here, because the hash is always a 40-hex digest.
- `Object::write_to_objects`, `Object::blob_from_file` and `Object::write` are not part of this model. They are assumed to store the serialized object the way `Store.ObjectStore.Put` does.
- HashObject.WriteBlob: `io::copy` is modelled as one `write_all` of the whole content. The content is assumed to be the bytes stat measured; a file that changes between stat and read is not modelled.
- HashObject.Invoke: the staging file `temporary` is assumed not to be the file being hashed. `hash-object -w temporary` truncates its own input at `File::create` before stat, so the program stores an empty blob; the model hashes the content it is given.
- WriteTree.Invoke: a stale `temporary` at the root is a listed entry with fixed content. The program would list it and then have it truncated or renamed away by the staging of an earlier object while it is read; the model hashes the content the listing holds.
- A symlink's blob content is the bytes given for it. Which bytes `blob_from_file` reads through a link is not part of this model.
- The environment (`NAME`, `EMAIL`) and the clock are parameters.
- CommitTree.ResolveIdentity: it is not stated that the built-in identity is valid UTF-8.
- `init`, argument parsing and failures to write to stdout are left out.
- TreeEntries.SortEntries: `sort_unstable_by` is modelled as a functional insertion sort on a sequence, not in place. `SortedUnique` shows any correct sort gives the same order for well-named entries.
- TreeEntries.CompareTransitive: it requires the outer two names to differ. Without that it is false: file "foo" < file "foo.txt" < directory "foo", yet the two "foo" entries compare Equal. That case cannot arise within one directory.
- WriteTree.TreeHashIgnoresListingOrder: it is stated for the order of the top-level listing only. Nested directories are values with their own listing order.
- LsTree.ListsWrittenTree: stated for the name-only format. The full format is covered for any payload by `LsTree.FullListing`.

=== FILE: bytes.dfy ===
/** Byte strings and the text codecs the program leans on: Rust's `u64`
    parsing and decimal formatting, UTF-8 validation (`str::from_utf8`,
    `CStr::to_str`, `OsString::into_string`) and lowercase hex
    (`hex::encode`). */
module Bytes {
  import opened Results

  type Byte = b: int | 0 <= b < 256

  const NUL: Byte := 0x00
  const NEWLINE: Byte := 0x0A
  const SPACE: Byte := 0x20
  const PLUS: Byte := 0x2B
  const SLASH: Byte := 0x2F
  const ZERO: Byte := 0x30

  /** 2^64: every `u64` is below it. */
  const U64_LIMIT: nat := 0x1_0000_0000_0000_0000

  /** The bytes of an ASCII literal. */
  function Ascii(s: string): seq<Byte>
  {
    seq(|s|, i requires 0 <= i < |s| => (s[i] as int) % 256)
  }

  function Min(a: nat, b: nat): nat
  {
    if a <= b then a else b
  }

  /** Index of the first occurrence of `b` in `s`: what `read_until`,
      `split_once` and `splitn` stop at. */
  function FirstIndex(s: seq<Byte>, b: Byte): (r: Option<nat>)
    ensures r.Some? ==> r.value < |s| && s[r.value] == b && b !in s[..r.value]
    ensures r.None? <==> b !in s
  {
    if s == [] then None
    else if s[0] == b then Some(0)
    else
      match FirstIndex(s[1..], b)
      case None => None
      case Some(i) =>
        assert s[..i + 1] == [s[0]] + s[1..][..i];
        Some(i + 1)
  }

  /** A position holding `b` with no earlier `b` is the first index. */
  lemma {:induction false} FirstIndexAt(s: seq<Byte>, b: Byte, i: nat)
    requires i < |s| && s[i] == b && b !in s[..i]
    ensures FirstIndex(s, b) == Some(i)
  {
    if i > 0 {
      assert s[1..][..i - 1] == s[1..i];
      assert s[0] == s[..i][0];
      FirstIndexAt(s[1..], b, i - 1);
    }
  }

  // ---------------------------------------------------------------------
  // Sequence steps, stated for any element type so that the solver does not
  // compare bytes while proving them

  lemma AppendEmpty<T>(s: seq<T>)
    ensures s + [] == s
  {
  }

  lemma AppendPair<T>(xs: seq<T>, a: T, b: T)
    ensures xs + [a] + [b] == xs + [a, b]
  {
  }

  lemma PrefixOfAppend<T>(xs: seq<T>, ys: seq<T>)
    ensures xs <= xs + ys
  {
    assert (xs + ys)[..|xs|] == xs;
  }

  lemma SuffixOfAppend<T>(xs: seq<T>, ys: seq<T>)
    ensures (xs + ys)[|xs + ys| - |ys|..] == ys
  {
  }

  lemma SplitAppend<T>(xs: seq<T>, c: nat, ys: seq<T>)
    requires c <= |xs|
    ensures xs + ys == xs[..c] + (xs[c..] + ys)
  {
    assert xs == xs[..c] + xs[c..];
  }

  lemma AppendAssoc<T>(xs: seq<T>, ys: seq<T>, zs: seq<T>)
    ensures (xs + ys) + zs == xs + (ys + zs)
  {
  }

  lemma ConsAppend<T>(x: T, xs: seq<T>, ys: seq<T>)
    ensures [x] + (xs + ys) == ([x] + xs) + ys
  {
  }

  lemma ConsTail<T>(x: T, xs: seq<T>)
    ensures ([x] + xs)[0] == x && ([x] + xs)[1..] == xs
  {
  }

  lemma PrefixGrows<T>(s: seq<T>, pos: nat, n: nat)
    requires pos + n <= |s|
    ensures s[..pos] + s[pos..][..n] == s[..pos + n]
  {
  }

  lemma SplitAround<T>(s: seq<T>, i: nat)
    requires i < |s|
    ensures s == s[..i] + [s[i]] + s[i + 1..]
  {
  }

  /** A sequence cut at `j` inside its first `i` elements, at `i`, and after
      the `width` elements that follow. */
  lemma SplitTwice<T>(s: seq<T>, i: nat, j: nat, width: nat)
    requires j < i && i + 1 + width <= |s|
    ensures var m := s[..i];
      s == m[..j] + [m[j]] + m[j + 1..] + [s[i]] + s[i + 1..i + 1 + width] + s[i + 1 + width..]
  {
    var m := s[..i];
    assert m == m[..j] + [m[j]] + m[j + 1..];
    assert s == m + [s[i]] + s[i + 1..i + 1 + width] + s[i + 1 + width..];
  }

  // ---------------------------------------------------------------------
  // Decimal numbers

  predicate IsDigit(b: Byte)
  {
    0x30 <= b <= 0x39
  }

  predicate AllDigits(s: seq<Byte>)
  {
    forall i :: 0 <= i < |s| ==> IsDigit(s[i])
  }

  /** The number a string of decimal digits denotes (most significant first). */
  function DigitsValue(s: seq<Byte>): nat
    requires AllDigits(s)
  {
    if s == [] then 0 else DigitsValue(s[..|s| - 1]) * 10 + (s[|s| - 1] - ZERO)
  }

  /** `format!("{}", n)`: the shortest decimal rendering of `n`. */
  function Decimal(n: nat): (r: seq<Byte>)
    ensures |r| >= 1 && AllDigits(r)
    ensures |r| > 1 ==> r[0] != ZERO
  {
    if n < 10 then [ZERO + n] else Decimal(n / 10) + [ZERO + n % 10]
  }

  /** The digits `Decimal` writes denote the number formatted. */
  lemma {:induction false} DecimalValue(n: nat)
    ensures DigitsValue(Decimal(n)) == n
  {
    if n >= 10 {
      var r := Decimal(n);
      assert r[..|r| - 1] == Decimal(n / 10);
      DecimalValue(n / 10);
    }
  }

  /** A number's text without its one optional leading '+'. */
  function Magnitude(s: seq<Byte>): (m: seq<Byte>)
    ensures s == m || s == [PLUS] + m
  {
    if s != [] && s[0] == PLUS then s[1..] else s
  }

  /** `str::parse::<u64>`: an optional single leading '+', then one or more
      decimal digits whose value fits in 64 bits. The empty string, a lone
      '+', any other byte (a '-', a space) and overflow are errors. */
  function ParseU64(s: seq<Byte>): (r: Option<nat>)
    ensures r.Some? <==> Magnitude(s) != [] && AllDigits(Magnitude(s)) && DigitsValue(Magnitude(s)) < U64_LIMIT
    ensures r.Some? ==> r.value == DigitsValue(Magnitude(s)) && r.value < U64_LIMIT
  {
    if s == [] then None
    else
      var digits := if s[0] == PLUS then s[1..] else s;
      if digits == [] || !AllDigits(digits) then None
      else if DigitsValue(digits) < U64_LIMIT then Some(DigitsValue(digits))
      else None
  }

  /** Formatting a u64 and parsing it back gives the same number, with or
      without a leading '+'. */
  lemma ParseDecimal(n: nat)
    requires n < U64_LIMIT
    ensures ParseU64(Decimal(n)) == Some(n)
    ensures ParseU64([PLUS] + Decimal(n)) == Some(n)
  {
    var d := Decimal(n);
    DecimalValue(n);
    assert ([PLUS] + d)[1..] == d;
  }

  /** A size text that contains a space (a second separator) never parses. */
  lemma ParseRejectsSpace(s: seq<Byte>)
    requires SPACE in s
    ensures ParseU64(s) == None
  {
    var k :| 0 <= k < |s| && s[k] == SPACE;
    var digits := if s[0] == PLUS then s[1..] else s;
    var j := if s[0] == PLUS then k - 1 else k;
    assert 0 <= j < |digits| && digits[j] == SPACE;
    assert !IsDigit(digits[j]);
  }

  // ---------------------------------------------------------------------
  // UTF-8

  predicate IsContinuation(b: Byte)
  {
    0x80 <= b <= 0xBF
  }

  /** Length of the well-formed UTF-8 sequence `s` starts with (the table of
      well-formed byte sequences in section 3.9 of the Unicode Standard),
      or 0 if `s` does not start with one. */
  function Utf8Width(s: seq<Byte>): (n: nat)
    requires |s| > 0
    ensures n <= |s| && n <= 4
    ensures s[0] < 0x80 <==> n == 1
  {
    var b := s[0];
    if b < 0x80 then 1
    else if 0xC2 <= b <= 0xDF then
      if |s| >= 2 && IsContinuation(s[1]) then 2 else 0
    else if b == 0xE0 then
      if |s| >= 3 && 0xA0 <= s[1] <= 0xBF && IsContinuation(s[2]) then 3 else 0
    else if 0xE1 <= b <= 0xEC || 0xEE <= b <= 0xEF then
      if |s| >= 3 && IsContinuation(s[1]) && IsContinuation(s[2]) then 3 else 0
    else if b == 0xED then
      if |s| >= 3 && 0x80 <= s[1] <= 0x9F && IsContinuation(s[2]) then 3 else 0
    else if b == 0xF0 then
      if |s| >= 4 && 0x90 <= s[1] <= 0xBF && IsContinuation(s[2]) && IsContinuation(s[3]) then 4 else 0
    else if 0xF1 <= b <= 0xF3 then
      if |s| >= 4 && IsContinuation(s[1]) && IsContinuation(s[2]) && IsContinuation(s[3]) then 4 else 0
    else if b == 0xF4 then
      if |s| >= 4 && 0x80 <= s[1] <= 0x8F && IsContinuation(s[2]) && IsContinuation(s[3]) then 4 else 0
    else 0
  }

  /** `s` is a concatenation of well-formed UTF-8 sequences. */
  predicate ValidUtf8(s: seq<Byte>)
    decreases |s|
  {
    s == [] || (Utf8Width(s) > 0 && ValidUtf8(s[Utf8Width(s)..]))
  }

  predicate IsAscii(s: seq<Byte>)
  {
    forall i :: 0 <= i < |s| ==> s[i] < 0x80
  }

  /** A literal of printable ASCII characters: ASCII bytes, no space, no NUL. */
  lemma PrintableLiteral(s: string)
    requires forall i :: 0 <= i < |s| ==> 0x20 < s[i] as int < 0x7F
    ensures |Ascii(s)| == |s| && IsAscii(Ascii(s)) && SPACE !in Ascii(s) && NUL !in Ascii(s)
  {
    var a := Ascii(s);
    forall i | 0 <= i < |a| ensures 0x20 < a[i] < 0x80 {
      assert a[i] == s[i] as int;
    }
  }

  lemma {:induction false} AsciiIsUtf8(s: seq<Byte>)
    requires IsAscii(s)
    ensures ValidUtf8(s)
  {
    if s != [] {
      AsciiIsUtf8(s[1..]);
    }
  }

  /** Number of Unicode scalar values in a UTF-8 string: every byte that is
      not a continuation byte starts one. */
  function CharCount(s: seq<Byte>): nat
  {
    if s == [] then 0 else (if IsContinuation(s[0]) then 0 else 1) + CharCount(s[1..])
  }

  lemma {:induction false} AsciiCharCount(s: seq<Byte>)
    requires IsAscii(s)
    ensures CharCount(s) == |s|
  {
    if s != [] {
      AsciiCharCount(s[1..]);
    }
  }

  // ---------------------------------------------------------------------
  // Lowercase hex

  predicate IsLowerHex(b: Byte)
  {
    0x30 <= b <= 0x39 || 0x61 <= b <= 0x66
  }

  function HexValue(c: Byte): (v: nat)
    requires IsLowerHex(c)
    ensures v < 16
  {
    if c <= 0x39 then c - 0x30 else c - 0x61 + 10
  }

  function HexDigit(v: nat): (c: Byte)
    requires v < 16
    ensures IsLowerHex(c) && HexValue(c) == v
  {
    if v < 10 then 0x30 + v else 0x61 + (v - 10)
  }

  /** `hex::encode`: two lowercase hex digits per byte, high nibble first. */
  function Hex(d: seq<Byte>): (h: seq<Byte>)
    ensures |h| == 2 * |d|
    ensures forall i :: 0 <= i < |h| ==> IsLowerHex(h[i])
  {
    if d == [] then [] else [HexDigit(d[0] / 16), HexDigit(d[0] % 16)] + Hex(d[1..])
  }

  /** Inverse of `Hex` on even-length lowercase hex text. */
  function UnHex(h: seq<Byte>): seq<Byte>
    requires |h| % 2 == 0
    requires forall i :: 0 <= i < |h| ==> IsLowerHex(h[i])
  {
    if h == [] then [] else [HexValue(h[0]) * 16 + HexValue(h[1])] + UnHex(h[2..])
  }

  lemma {:induction false} HexRoundTrip(d: seq<Byte>)
    ensures UnHex(Hex(d)) == d
  {
    if d != [] {
      var h := Hex(d);
      assert h[2..] == Hex(d[1..]);
      HexRoundTrip(d[1..]);
    }
  }

  /** Hex text is ASCII, hence valid UTF-8 and cut only at char boundaries. */
  lemma HexIsAscii(d: seq<Byte>)
    ensures IsAscii(Hex(d))
  {
  }

  lemma HexInjective(a: seq<Byte>, b: seq<Byte>)
    requires Hex(a) == Hex(b)
    ensures a == b
  {
    HexRoundTrip(a);
    HexRoundTrip(b);
  }
}

=== FILE: cat_file.dfy ===
/** cat-file (src/commands/cat_file.rs, and its older copy in src/main.rs):
    print the payload of a blob, read through the same header parse as
    `Object::read` but accepting only the kind name "blob", and capped at
    the size the header declares. */
module CatFile {
  import opened Results
  import opened Bytes
  import opened Objects
  import opened Store

  /** `invoke(pretty_print, object_hash)` against the files of the store.
      Without `-p` nothing is opened. A blob stream shorter than its
      declared size is printed and then reported; a longer one is cut. */
  function Invoke(prettyPrint: bool, files: Files, hash: seq<Byte>): (out: Outcome)
    ensures !prettyPrint ==> out == Outcome([], Failure(ModeRequired))
    ensures out.stdout != [] ==> prettyPrint && OpenObject(files, hash).Ok?
    ensures out.status.Success? ==> prettyPrint && OpenObject(files, hash).Ok?
  {
    if !prettyPrint then Outcome([], Failure(ModeRequired))
    else
      match OpenObject(files, hash)
      case Err(e) => Outcome([], Failure(e))
      case Ok(data) =>
        match SplitHeader(data)
        case Err(e) => Outcome([], Failure(e))
        case Ok(h) =>
          if h.kindName != Ascii("blob") then Outcome([], Failure(UnprintableKind(h.kindName)))
          else
            match ParseU64(h.sizeText)
            case None => Outcome([], Failure(InvalidSize))
            case Some(size) =>
              var printed := h.rest[..Min(size, |h.rest|)];
              if |printed| == size then Outcome(printed, Success)
              else Outcome(printed, Failure(SizeMismatch(size, |printed|)))
  }

  /** cat-file prints what `Object::read` yields for a blob, succeeds exactly
      when that is as long as declared, refuses the other kinds without
      printing, and prints nothing when the object cannot be read. */
  lemma AgreesWithRead(files: Files, hash: seq<Byte>)
    ensures var out, read := Invoke(true, files, hash), ReadObject(files, hash);
      && (out.status.Success? <==>
            read.Ok? && read.value.kind == Blob && |read.value.payload| == read.value.expectedSize)
      && (read.Ok? && read.value.kind == Blob ==>
            && out.stdout == read.value.payload
            && (|read.value.payload| != read.value.expectedSize ==>
                  out.status == Failure(SizeMismatch(read.value.expectedSize, |read.value.payload|))))
      && (read.Ok? && read.value.kind != Blob ==>
            out == Outcome([], Failure(UnprintableKind(KindName(read.value.kind)))))
      && (read.Err? ==> out.stdout == [] && out.status.Failure?)
  {
    if OpenObject(files, hash).Ok? {
      var data := OpenObject(files, hash).value;
      if SplitHeader(data).Ok? {
        var h := SplitHeader(data).value;
        KindNameRoundTrip(Blob, h.kindName);
        if KindFromName(h.kindName).Some? {
          KindNameRoundTrip(KindFromName(h.kindName).value, h.kindName);
        }
      }
    }
  }

  /** A blob stored by hash-object is printed back in full, whatever follows
      its declared length in the stream. */
  lemma PrintsStoredBlob(files: Files, d: Digest, content: seq<Byte>, trailing: seq<Byte>)
    requires |content| < U64_LIMIT
    requires DigestPath(d) in files && files[DigestPath(d)] == Encode(Blob, content) + trailing
    ensures Invoke(true, files, Hex(d)) == Outcome(content, Success)
  {
    DecodeEncode(Blob, content, trailing);
    AgreesWithRead(files, Hex(d));
  }

  /** A blob stream that ends before its declared size is printed as far as
      it goes and then reported as a size mismatch. */
  lemma ReportsShortBlob(files: Files, hash: seq<Byte>, size: nat, content: seq<Byte>)
    requires |content| < size < U64_LIMIT
    requires OpenObject(files, hash) == Ok(Ascii("blob ") + Decimal(size) + [NUL] + content)
    ensures Invoke(true, files, hash) == Outcome(content, Failure(SizeMismatch(size, |content|)))
  {
    var name, text := KindName(Blob), Decimal(size);
    var data := Ascii("blob ") + text + [NUL] + content;
    assert SplitHeader(data) == Ok(Header(name, text, content)) by {
      BlobLiteral(text, content);
      assert IsAscii(name + [SPACE] + text);
      AsciiIsUtf8(name + [SPACE] + text);
      SplitHeaderOf(name, text, content);
    }
    assert ParseU64(text) == Some(size) by {
      ParseDecimal(size);
    }
    assert content[..Min(size, |content|)] == content;
  }
}

=== FILE: commit_tree.dfy ===
/** commit-tree (src/commands/commit_tree.rs): the commit payload assembled
    line by line, the identity taken from $NAME and $EMAIL, and the commit
    object stored. The environment and the clock are parameters. */
module CommitTree {
  import opened Results
  import opened Bytes
  import opened Objects
  import opened Store

  /** Who is named on the author and committer lines. */
  datatype Identity = Identity(name: seq<Byte>, email: seq<Byte>)

  const DefaultIdentity: Identity := Identity(Ascii("Jon Gjengset"), Ascii("jon@thesquareplanet.com"))

  /** `SystemTime::now().duration_since(UNIX_EPOCH)`: whole seconds since the
      epoch, or a clock set before it. */
  datatype Clock = SinceEpoch(secs: nat) | BeforeEpoch

  /** The identity used for a commit, from `env::var_os("NAME")` and
      `env::var_os("EMAIL")` (raw bytes, `None` when unset): both must be set
      to be used, and then both must be UTF-8, $NAME checked first; otherwise
      the built-in default. */
  function ResolveIdentity(name: Option<seq<Byte>>, email: Option<seq<Byte>>): (r: Result<Identity>)
    ensures r.Err? <==> name.Some? && email.Some? && !(ValidUtf8(name.value) && ValidUtf8(email.value))
    ensures r.Err? ==> r.error == EnvNotUtf8(if ValidUtf8(name.value) then Ascii("EMAIL") else Ascii("NAME"))
    ensures r.Ok? && name.Some? && email.Some? ==> r.value == Identity(name.value, email.value)
    ensures r.Ok? && (name.None? || email.None?) ==> r.value == DefaultIdentity
  {
    if name.Some? && email.Some? then
      if !ValidUtf8(name.value) then Err(EnvNotUtf8(Ascii("NAME")))
      else if !ValidUtf8(email.value) then Err(EnvNotUtf8(Ascii("EMAIL")))
      else Ok(Identity(name.value, email.value))
    else Ok(DefaultIdentity)
  }

  /** `"<role> <name> <<email>> <secs> +0000"`, without its newline. */
  function Signature(role: seq<Byte>, who: Identity, secs: nat): seq<Byte>
  {
    role + [SPACE] + who.name + Ascii(" <") + who.email + Ascii("> ") + Decimal(secs) + Ascii(" +0000")
  }

  /** The header of a commit, in order: tree, an optional parent, author
      and committer. */
  function HeaderLines(tree: seq<Byte>, parent: Option<seq<Byte>>, who: Identity, secs: nat): seq<seq<Byte>>
  {
    [Ascii("tree ") + tree]
    + (if parent.Some? then [Ascii("parent ") + parent.value] else [])
    + [Signature(Ascii("author"), who, secs), Signature(Ascii("committer"), who, secs)]
  }

  /** The lines of a commit: the header, an empty line, and the message. */
  function CommitLines(message: seq<Byte>, tree: seq<Byte>, parent: Option<seq<Byte>>, who: Identity, secs: nat)
    : seq<seq<Byte>>
  {
    HeaderLines(tree, parent, who, secs) + [[], message]
  }

  /** Each line followed by a newline, as successive `writeln!` calls write them. */
  function Unlines(lines: seq<seq<Byte>>): seq<Byte>
  {
    if lines == [] then [] else lines[0] + [NEWLINE] + Unlines(lines[1..])
  }

  /** Cutting text after each newline (a last line without one still counts). */
  function Lines(s: seq<Byte>): seq<seq<Byte>>
    decreases |s|
  {
    if s == [] then []
    else
      match FirstIndex(s, NEWLINE)
      case None => [s]
      case Some(i) => [s[..i]] + Lines(s[i + 1..])
  }

  /** Text with a newline at `i`, its first, starts with the line before it. */
  lemma LinesCut(s: seq<Byte>, i: nat)
    requires FirstIndex(s, NEWLINE) == Some(i)
    ensures Lines(s) == [s[..i]] + Lines(s[i + 1..])
  {
  }

  predicate NoNewline(lines: seq<seq<Byte>>)
  {
    forall i :: 0 <= i < |lines| ==> NEWLINE !in lines[i]
  }

  /** Cutting text at its newlines, where the text starts with lines written
      one by one, gives those lines back and then the lines of the rest. */
  lemma {:induction false} LinesAfterUnlines(lines: seq<seq<Byte>>, rest: seq<Byte>)
    requires NoNewline(lines)
    ensures Lines(Unlines(lines) + rest) == lines + Lines(rest)
  {
    if lines == [] {
      assert Unlines(lines) + rest == rest;
    } else {
      var head, more := lines[0], lines[1..];
      var tail := Unlines(more) + rest;
      UnlinesThen(lines, rest);
      LinesOfLine(head, tail);
      NoNewlineTail(lines);
      LinesAfterUnlines(more, rest);
      assert lines == [head] + more;
      ConsAppend(head, more, Lines(rest));
    }
  }

  lemma UnlinesThen(lines: seq<seq<Byte>>, rest: seq<Byte>)
    requires lines != []
    ensures Unlines(lines) + rest == lines[0] + [NEWLINE] + (Unlines(lines[1..]) + rest)
  {
  }

  /** A line without a newline, then one: the first line of the text. */
  lemma LinesOfLine(head: seq<Byte>, tail: seq<Byte>)
    requires NEWLINE !in head
    ensures Lines(head + [NEWLINE] + tail) == [head] + Lines(tail)
  {
    var s := head + [NEWLINE] + tail;
    assert s[..|head|] == head;
    FirstIndexAt(s, NEWLINE, |head|);
    LinesCut(s, |head|);
    assert s[|head| + 1..] == tail;
  }

  lemma NoNewlineTail(lines: seq<seq<Byte>>)
    requires lines != [] && NoNewline(lines)
    ensures NoNewline(lines[1..])
  {
    forall i | 0 <= i < |lines| - 1 ensures NEWLINE !in lines[1..][i] {
      assert lines[1..][i] == lines[i + 1];
    }
  }

  /** Writing lines and cutting the text at its newlines gives the lines back. */
  lemma LinesOfUnlines(lines: seq<seq<Byte>>)
    requires NoNewline(lines)
    ensures Lines(Unlines(lines)) == lines
  {
    LinesAfterUnlines(lines, []);
    assert Unlines(lines) + [] == Unlines(lines);
  }

  /** Conversely, text that ends in a newline is cut into lines without
      newlines that, written one by one, give the text back. */
  lemma {:induction false} UnlinesOfLines(s: seq<Byte>)
    requires s == [] || s[|s| - 1] == NEWLINE
    ensures NoNewline(Lines(s)) && Unlines(Lines(s)) == s
    decreases |s|
  {
    if s != [] {
      assert s[|s| - 1] in s;
      var i := FirstIndex(s, NEWLINE).value;
      var head, rest := s[..i], s[i + 1..];
      assert rest == [] || rest[|rest| - 1] == NEWLINE;
      UnlinesOfLines(rest);
      var more := Lines(rest);
      assert Lines(s) == [head] + more by {
        LinesCut(s, i);
      }
      assert Unlines([head] + more) == head + [NEWLINE] + Unlines(more) by {
        ConsTail(head, more);
      }
      SplitAround(s, i);
      NoNewlineCons(head, more);
    }
  }

  lemma NoNewlineCons(line: seq<Byte>, lines: seq<seq<Byte>>)
    requires NEWLINE !in line && NoNewline(lines)
    ensures NoNewline([line] + lines)
  {
    forall k | 0 <= k < |lines| + 1 ensures NEWLINE !in ([line] + lines)[k] {
      if k > 0 {
        assert ([line] + lines)[k] == lines[k - 1];
      }
    }
  }

  /** The text of the commit object. */
  function CommitPayload(message: seq<Byte>, tree: seq<Byte>, parent: Option<seq<Byte>>, who: Identity, secs: nat)
    : seq<Byte>
  {
    Unlines(CommitLines(message, tree, parent, who, secs))
  }

  /** Writing one more line appends it and its newline. */
  lemma {:induction false} UnlinesSnoc(lines: seq<seq<Byte>>, line: seq<Byte>)
    ensures Unlines(lines + [line]) == Unlines(lines) + line + [NEWLINE]
  {
    if lines == [] {
      assert [line][1..] == [];
    } else {
      assert (lines + [line])[1..] == lines[1..] + [line];
      UnlinesSnoc(lines[1..], line);
    }
  }

  /** The payload starts with the tree line, the hash inserted as given; it
      ends with an empty line, the message and a newline. */
  lemma PayloadFrame(message: seq<Byte>, tree: seq<Byte>, parent: Option<seq<Byte>>, who: Identity, secs: nat)
    ensures var p := CommitPayload(message, tree, parent, who, secs);
      && Ascii("tree ") + tree + [NEWLINE] <= p
      && |p| >= |message| + 3
      && p[|p| - |message| - 3..] == [NEWLINE, NEWLINE] + message + [NEWLINE]
  {
    var header := HeaderLines(tree, parent, who, secs);
    var k := |header|;
    var before, last := header[..k - 1], header[k - 1];
    assert header == before + [last];
    UnlinesSnoc(before, last);
    AppendPair(header, [], message);
    UnlinesSnoc(header + [[]], message);
    UnlinesSnoc(header, []);
    var front := Unlines(before) + last;
    var p := CommitPayload(message, tree, parent, who, secs);
    var end := [NEWLINE, NEWLINE] + message + [NEWLINE];
    assert p == front + end by {
      assert p == front + [NEWLINE] + [] + [NEWLINE] + message + [NEWLINE];
    }
    SuffixOfAppend(front, end);
    assert Unlines(header + [[], message]) == header[0] + [NEWLINE] + Unlines((header + [[], message])[1..]);
    PrefixOfAppend(header[0] + [NEWLINE], Unlines((header + [[], message])[1..]));
  }

  /** With no newline inside the hashes or the identity, the payload's
      lines are the header, an empty line, and then the lines of the
      message followed by its newline (which `UnlinesOfLines` joins back
      into that text); a message without a newline is the single last line. */
  lemma PayloadLines(message: seq<Byte>, tree: seq<Byte>, parent: Option<seq<Byte>>, who: Identity, secs: nat)
    requires NEWLINE !in tree
    requires parent.Some? ==> NEWLINE !in parent.value
    requires NEWLINE !in who.name && NEWLINE !in who.email
    ensures Lines(CommitPayload(message, tree, parent, who, secs))
            == HeaderLines(tree, parent, who, secs) + [[]] + Lines(message + [NEWLINE])
    ensures NEWLINE !in message ==>
      Lines(CommitPayload(message, tree, parent, who, secs)) == HeaderLines(tree, parent, who, secs) + [[], message]
  {
    var header := HeaderLines(tree, parent, who, secs) + [[]];
    var body := message + [NEWLINE];
    var payload := CommitPayload(message, tree, parent, who, secs);
    assert payload == Unlines(header) + body by {
      AppendPair(HeaderLines(tree, parent, who, secs), [], message);
      UnlinesSnoc(header, message);
      assert Unlines(header) + message + [NEWLINE] == Unlines(header) + body;
    }
    assert Lines(payload) == header + Lines(body) by {
      HeaderLinesHaveNoNewline(tree, parent, who, secs);
      LinesAfterUnlines(header, body);
    }
    if NEWLINE !in message {
      assert Lines(body) == [message] by {
        assert body[..|message|] == message;
        FirstIndexAt(body, NEWLINE, |message|);
        LinesCut(body, |message|);
        assert body[|message| + 1..] == [];
      }
      AppendPair(HeaderLines(tree, parent, who, secs), [], message);
    }
  }

  /** The header names the tree first, has a parent line directly after it
      exactly when a parent is given, and ends with author and committer
      lines with the same name, email and time. */
  lemma HeaderLayout(tree: seq<Byte>, parent: Option<seq<Byte>>, who: Identity, secs: nat)
    ensures var h := HeaderLines(tree, parent, who, secs);
      && |h| == (if parent.Some? then 4 else 3)
      && h[0] == Ascii("tree ") + tree
      && (parent.Some? <==> Ascii("parent ") <= h[1])
      && (parent.Some? ==> h[1] == Ascii("parent ") + parent.value)
      && h[|h| - 2] == Signature(Ascii("author"), who, secs)
      && h[|h| - 1] == Signature(Ascii("committer"), who, secs)
  {
    assert Signature(Ascii("author"), who, secs)[0] == 0x61;
  }

  lemma HeaderLinesHaveNoNewline(tree: seq<Byte>, parent: Option<seq<Byte>>, who: Identity, secs: nat)
    requires NEWLINE !in tree
    requires parent.Some? ==> NEWLINE !in parent.value
    requires NEWLINE !in who.name && NEWLINE !in who.email
    ensures NoNewline(HeaderLines(tree, parent, who, secs) + [[]])
  {
    var author, committer := Ascii("author"), Ascii("committer");
    assert NEWLINE !in Ascii("tree ") && NEWLINE !in Ascii("parent ");
    assert NEWLINE !in author && NEWLINE !in committer;
    SignatureHasNoNewline(author, who, secs);
    SignatureHasNoNewline(committer, who, secs);
  }

  lemma SignatureHasNoNewline(role: seq<Byte>, who: Identity, secs: nat)
    requires NEWLINE !in role && NEWLINE !in who.name && NEWLINE !in who.email
    ensures NEWLINE !in Signature(role, who, secs)
  {
    var d := Decimal(secs);
    assert NEWLINE !in Ascii(" <") && NEWLINE !in Ascii("> ") && NEWLINE !in Ascii(" +0000");
    assert forall i :: 0 <= i < |d| ==> d[i] != NEWLINE;
  }

  /** Everything the commit depends on besides the hashes and the message:
      the identity is resolved before the clock is read. */
  function CommitText(message: seq<Byte>, tree: seq<Byte>, parent: Option<seq<Byte>>,
                      name: Option<seq<Byte>>, email: Option<seq<Byte>>, clock: Clock): (r: Result<seq<Byte>>)
    ensures r.Err? <==> ResolveIdentity(name, email).Err? || clock.BeforeEpoch?
    ensures ResolveIdentity(name, email).Err? ==> r == Err(ResolveIdentity(name, email).error)
    ensures r.Err? && ResolveIdentity(name, email).Ok? ==> r.error == ClockBeforeEpoch
    ensures r.Ok? ==> r.value == CommitPayload(message, tree, parent, ResolveIdentity(name, email).value, clock.secs)
  {
    match ResolveIdentity(name, email)
    case Err(e) => Err(e)
    case Ok(who) =>
      match clock
      case BeforeEpoch => Err(ClockBeforeEpoch)
      case SinceEpoch(secs) => Ok(CommitPayload(message, tree, parent, who, secs))
  }

  /** `writeln!(commit, ..)` on text that holds the lines `lines`. */
  method WriteLine(commit: seq<Byte>, ghost lines: seq<seq<Byte>>, line: seq<Byte>) returns (grown: seq<Byte>)
    requires commit == Unlines(lines)
    ensures grown == Unlines(lines + [line])
  {
    UnlinesSnoc(lines, line);
    grown := commit + line + [NEWLINE];
  }

  /** The text part of `write_commit`: the `String` grows by one `writeln!`
      at a time, and the identity and the clock are consulted between the
      parent line and the author line. */
  method BuildCommit(message: seq<Byte>, tree: seq<Byte>, parent: Option<seq<Byte>>,
                     name: Option<seq<Byte>>, email: Option<seq<Byte>>, clock: Clock)
    returns (r: Result<seq<Byte>>)
    ensures r == CommitText(message, tree, parent, name, email, clock)
  {
    // `lines` are the lines written so far.
    ghost var lines: seq<seq<Byte>> := [];
    var commit := WriteLine([], lines, Ascii("tree ") + tree);
    lines := [Ascii("tree ") + tree];
    if parent.Some? {
      commit := WriteLine(commit, lines, Ascii("parent ") + parent.value);
      lines := lines + [Ascii("parent ") + parent.value];
    } else {
      AppendEmpty(lines);
    }
    ghost var start := lines;
    assert start == [Ascii("tree ") + tree] + (if parent.Some? then [Ascii("parent ") + parent.value] else []);
    var who := ResolveIdentity(name, email);
    if who.Err? {
      return Err(who.error);
    }
    if clock.BeforeEpoch? {
      return Err(ClockBeforeEpoch);
    }
    var author := Signature(Ascii("author"), who.value, clock.secs);
    var committer := Signature(Ascii("committer"), who.value, clock.secs);
    commit := WriteLine(commit, lines, author);
    lines := lines + [author];
    commit := WriteLine(commit, lines, committer);
    lines := lines + [committer];
    commit := WriteLine(commit, lines, []);
    lines := lines + [[]];
    commit := WriteLine(commit, lines, message);
    lines := lines + [message];
    AppendPair(start, author, committer);
    AppendPair(start + [author, committer], [], message);
    assert lines == CommitLines(message, tree, parent, who.value, clock.secs);
    assert commit == CommitPayload(message, tree, parent, who.value, clock.secs);
    assert CommitText(message, tree, parent, name, email, clock) == Ok(commit);
    r := Ok(commit);
  }

  /** `write_commit`: the commit text is stored as a Commit object whose
      declared size is its length, and reads back as such. */
  method WriteCommit(store: ObjectStore, message: seq<Byte>, tree: seq<Byte>, parent: Option<seq<Byte>>,
                     name: Option<seq<Byte>>, email: Option<seq<Byte>>, clock: Clock)
    returns (r: Result<Digest>)
    modifies store
    ensures CommitText(message, tree, parent, name, email, clock).Err? ==>
      r == Err(CommitText(message, tree, parent, name, email, clock).error)
      && store.files == old(store.files) && store.dirs == old(store.dirs)
    ensures CommitText(message, tree, parent, name, email, clock).Ok? ==>
      var text := CommitText(message, tree, parent, name, email, clock).value;
      && r == Ok(store.sha1(Encode(Commit, text)))
      && store.files == (old(store.files) - {Temporary})[DigestPath(r.value) := Encode(Commit, text)]
      && store.dirs == old(store.dirs) + {FanOutDir(Hex(r.value))}
      && (|text| < U64_LIMIT ==> ReadObject(store.files, Hex(r.value)) == Ok(Object(Commit, |text|, text)))
  {
    var text := BuildCommit(message, tree, parent, name, email, clock);
    if text.Err? {
      return Err(text.error);
    }
    var d := store.Put(Commit, text.value);
    if |text.value| < U64_LIMIT {
      ReadStored(store.files, d, Commit, text.value);
    }
    r := Ok(d);
  }

  /** `invoke`: the hex digest of the stored commit is what is printed. */
  method Invoke(store: ObjectStore, message: seq<Byte>, tree: seq<Byte>, parent: Option<seq<Byte>>,
                name: Option<seq<Byte>>, email: Option<seq<Byte>>, clock: Clock)
    returns (r: Result<seq<Byte>>)
    modifies store
    ensures r.Err? <==> CommitText(message, tree, parent, name, email, clock).Err?
    ensures r.Ok? ==> r.value == Hex(store.sha1(Encode(Commit, CommitText(message, tree, parent, name, email, clock).value)))
    ensures r.Err? ==> store.files == old(store.files) && store.dirs == old(store.dirs)
    ensures r.Ok? ==>
      var text := CommitText(message, tree, parent, name, email, clock).value;
      var d := store.sha1(Encode(Commit, text));
      && store.files == (old(store.files) - {Temporary})[DigestPath(d) := Encode(Commit, text)]
      && store.dirs == old(store.dirs) + {FanOutDir(Hex(d))}
      && (|text| < U64_LIMIT ==> ReadObject(store.files, r.value) == Ok(Object(Commit, |text|, text)))
  {
    var d := WriteCommit(store, message, tree, parent, name, email, clock);
    match d
    case Err(e) => r := Err(e);
    case Ok(h) => r := Ok(Hex(h));
  }
}

=== FILE: hash_object.dfy ===
/** hash-object (src/commands/hash_object.rs, and its older copy in
    src/main.rs): a writer that hashes exactly the bytes its inner sink
    accepts, the blob stream `"blob <len>\0<content>"` pushed through it,
    and the staging of that stream into the object store.

    The inner sink is the zlib encoder wrapped around a file or
    `io::sink()`; compression is not modelled, so the sink records the
    uncompressed bytes it accepts. How the device answers each call is
    an input: a script of replies, after which it accepts everything. */
module HashObject {
  import opened Results
  import opened Bytes
  import opened Objects
  import opened Store

  /** One answer of the device to a `write` (or `flush`/`finish`) call. */
  datatype Reply =
    | Accept(limit: nat)   // takes at most `limit` bytes of the buffer
    | Interrupt            // `ErrorKind::Interrupted`
    | Fail(code: nat)      // any other I/O error

  /** The answer to a write of `n` bytes: a device with no scripted reply
      left takes the whole buffer. */
  function Answer(replies: seq<Reply>, n: nat): (r: Result<nat>)
    ensures r.Ok? ==> r.value <= n
  {
    if replies == [] then Ok(n)
    else
      match replies[0]
      case Accept(limit) => Ok(Min(limit, n))
      case Interrupt => Err(Interrupted)
      case Fail(code) => Err(Io(code))
  }

  /** The script left after one call. */
  function Rest(replies: seq<Reply>): seq<Reply>
  {
    if replies == [] then [] else replies[1..]
  }

  /** The answer to a `flush` or `finish`. */
  function FlushAnswer(replies: seq<Reply>): Status
  {
    match Answer(replies, 0)
    case Ok(_) => Success
    case Err(e) => Failure(e)
  }

  class Sink {
    /** Every byte the device has taken, in order. */
    var accepted: seq<Byte>
    /** How it will answer its next calls. */
    var replies: seq<Reply>

    constructor (script: seq<Reply>)
      ensures accepted == [] && replies == script
    {
      accepted := [];
      replies := script;
    }

    /** `Write::write`: takes a prefix of `buf` and says how long it was. */
    method Write(buf: seq<Byte>) returns (r: Result<nat>)
      modifies this
      ensures r == Answer(old(replies), |buf|) && replies == Rest(old(replies))
      ensures accepted == old(accepted) + (if r.Ok? then buf[..r.value] else [])
    {
      r := Answer(replies, |buf|);
      if r.Ok? {
        accepted := accepted + buf[..r.value];
      }
      replies := Rest(replies);
    }

    /** `Write::flush`, and the encoder's `finish`, which writes out what
        the compressor still holds and is answered the same way. */
    method Flush() returns (s: Status)
      modifies this
      ensures s == FlushAnswer(old(replies)) && replies == Rest(old(replies))
      ensures accepted == old(accepted)
    {
      s := FlushAnswer(replies);
      replies := Rest(replies);
    }
  }

  /** The running SHA-1 state, seen as the bytes fed to it so far; the
      digest is SHA-1 of their concatenation, so it cannot depend on how
      they were split into `update` calls. */
  class Hasher {
    const sha1: seq<Byte> -> Digest
    var input: seq<Byte>

    constructor (sha1: seq<Byte> -> Digest)
      ensures this.sha1 == sha1 && input == []
    {
      this.sha1 := sha1;
      input := [];
    }

    method Update(data: seq<Byte>)
      modifies this
      ensures input == old(input) + data
    {
      input := input + data;
    }

    function Finalize(): Digest
      reads this
    {
      sha1(input)
    }
  }

  /** Outcome of `write_all` against a scripted device: the status, how
      many bytes were taken, and the script left. */
  datatype Run = Run(status: Status, written: nat, left: seq<Reply>)

  /** `Write::write_all`: write until the buffer is empty, retrying an
      interrupted call, failing with `WriteZero` when the device takes
      nothing, and passing any other error on. */
  function WriteAllRun(replies: seq<Reply>, remaining: nat): (run: Run)
    ensures run.written <= remaining
    ensures run.status.Success? <==> run.written == remaining
    decreases remaining + |replies|
  {
    if remaining == 0 then Run(Success, 0, replies)
    else
      match Answer(replies, remaining)
      case Err(Interrupted) => WriteAllRun(Rest(replies), remaining)
      case Err(e) => Run(Failure(e), 0, Rest(replies))
      case Ok(n) =>
        if n == 0 then Run(Failure(WriteZero), 0, Rest(replies))
        else
          var run := WriteAllRun(Rest(replies), remaining - n);
          Run(run.status, n + run.written, run.left)
  }

  /** A run that had already taken `n` bytes before it started. */
  function After(n: nat, run: Run): Run
  {
    Run(run.status, n + run.written, run.left)
  }

  /** `total` is the run of a `write_all` that has taken `pos` bytes and
      has `remaining` bytes left to offer a device scripted by `replies`. */
  ghost predicate Pending(total: Run, pos: nat, replies: seq<Reply>, remaining: nat)
  {
    total == After(pos, WriteAllRun(replies, remaining))
  }

  lemma WriteAllRunRetries(total: Run, pos: nat, replies: seq<Reply>, remaining: nat)
    requires remaining > 0 && Answer(replies, remaining) == Err(Interrupted)
    requires Pending(total, pos, replies, remaining)
    ensures Pending(total, pos, Rest(replies), remaining)
  {
  }

  lemma WriteAllRunTakes(total: Run, pos: nat, replies: seq<Reply>, remaining: nat, n: nat)
    requires remaining > 0 && Answer(replies, remaining) == Ok(n) && n > 0
    requires Pending(total, pos, replies, remaining)
    ensures Pending(total, pos + n, Rest(replies), remaining - n)
  {
  }

  lemma WriteAllRunStops(replies: seq<Reply>, remaining: nat, e: Error)
    requires remaining > 0
    requires (Answer(replies, remaining) == Err(e) && e != Interrupted) || (Answer(replies, remaining) == Ok(0) && e == WriteZero)
    ensures WriteAllRun(replies, remaining) == Run(Failure(e), 0, Rest(replies))
  {
  }

  /** A device that never fails and never takes 0 bytes receives every
      byte, however it splits the buffer up. */
  lemma {:induction false} WellBehavedDeviceTakesAll(replies: seq<Reply>, remaining: nat)
    requires forall i :: 0 <= i < |replies| ==> replies[i].Interrupt? || (replies[i].Accept? && replies[i].limit > 0)
    ensures WriteAllRun(replies, remaining).status == Success
    decreases remaining + |replies|
  {
    if remaining > 0 {
      match Answer(replies, remaining)
      case Err(_) => WellBehavedDeviceTakesAll(Rest(replies), remaining);
      case Ok(n) => WellBehavedDeviceTakesAll(Rest(replies), remaining - n);
    }
  }

  /** `io::sink()`: with nothing scripted, every write takes the whole buffer. */
  lemma EmptyScriptTakesAll(remaining: nat)
    ensures WriteAllRun([], remaining) == Run(Success, remaining, [])
  {
  }

  class HashWriter {
    const writer: Sink
    const hasher: Hasher
    /** What the sink had taken before this writer was put in front of it. */
    ghost const base: seq<Byte>

    /** The hasher has seen exactly the bytes the sink took through this writer. */
    ghost predicate Valid()
      reads writer, hasher
    {
      writer.accepted == base + hasher.input
    }

    constructor (writer: Sink, sha1: seq<Byte> -> Digest)
      ensures this.writer == writer && fresh(hasher) && hasher.sha1 == sha1
      ensures hasher.input == [] && base == writer.accepted && Valid()
    {
      this.writer := writer;
      hasher := new Hasher(sha1);
      base := writer.accepted;
    }

    /** Forwards `buf`, hashes the `n` bytes the sink took and returns `n`;
        a sink error is returned and nothing is hashed. */
    method Write(buf: seq<Byte>) returns (r: Result<nat>)
      requires Valid()
      modifies writer, hasher
      ensures Valid()
      ensures r == Answer(old(writer.replies), |buf|) && writer.replies == Rest(old(writer.replies))
      ensures r.Ok? ==> hasher.input == old(hasher.input) + buf[..r.value]
      ensures r.Err? ==> hasher.input == old(hasher.input) && writer.accepted == old(writer.accepted)
    {
      r := writer.Write(buf);
      if r.Ok? {
        hasher.Update(buf[..r.value]);
      }
    }

    /** Delegates to the sink; the hasher is left alone. */
    method Flush() returns (s: Status)
      requires Valid()
      modifies writer
      ensures Valid()
      ensures s == FlushAnswer(old(writer.replies)) && writer.replies == Rest(old(writer.replies))
      ensures writer.accepted == old(writer.accepted)
    {
      s := writer.Flush();
    }

    /** `write_all` (what `write!` and `io::copy` call): the bytes hashed are
        the prefix of `buf` the device took, all of it on success. */
    method WriteAll(buf: seq<Byte>) returns (s: Status)
      requires Valid()
      modifies writer, hasher
      ensures Valid()
      ensures s == WriteAllRun(old(writer.replies), |buf|).status
      ensures writer.replies == WriteAllRun(old(writer.replies), |buf|).left
      ensures hasher.input == old(hasher.input) + buf[..WriteAllRun(old(writer.replies), |buf|).written]
      ensures s.Success? ==> hasher.input == old(hasher.input) + buf
      ensures old(writer.replies) == [] ==> s.Success? && writer.replies == []
    {
      EmptyScriptTakesAll(|buf|);
      ghost var total := WriteAllRun(writer.replies, |buf|);
      var pos := 0;
      while pos < |buf|
        invariant Valid()
        invariant 0 <= pos <= |buf|
        invariant hasher.input == old(hasher.input) + buf[..pos]
        invariant Pending(total, pos, writer.replies, |buf| - pos)
        decreases |buf| - pos + |writer.replies|
      {
        ghost var replies, remaining := writer.replies, |buf| - pos;
        assert |buf[pos..]| == remaining;
        var r := Write(buf[pos..]);
        match r
        case Err(e) =>
          if e != Interrupted {
            WriteAllRunStops(replies, remaining, e);
            return Failure(e);
          }
          WriteAllRunRetries(total, pos, replies, remaining);
        case Ok(n) =>
          if n == 0 {
            WriteAllRunStops(replies, remaining, WriteZero);
            return Failure(WriteZero);
          }
          WriteAllRunTakes(total, pos, replies, remaining, n);
          PrefixGrows(buf, pos, n);
          AppendAssoc(old(hasher.input), buf[..pos], buf[pos..][..n]);
          pos := pos + n;
          assert |buf| - pos == remaining - n;
      }
      s := Success;
    }
  }

  /** `write_blob`: stat the file, then write `"blob "`, the decimal length,
      a NUL and the file's bytes through a hashing writer around the sink,
      finish the encoder, and return the hex digest of everything hashed.
      `file` is the input file's content, or `None` when it cannot be stat'ed. */
  method WriteBlob(file: Option<seq<Byte>>, sink: Sink, sha1: seq<Byte> -> Digest)
    returns (r: Result<seq<Byte>>)
    modifies sink
    ensures file.None? ==> r == Err(StatFailed) && sink.accepted == old(sink.accepted)
    ensures r.Ok? ==> file.Some? && r.value == Hex(sha1(Encode(Blob, file.value)))
    ensures r.Ok? ==> sink.accepted == old(sink.accepted) + Encode(Blob, file.value)
    ensures file.Some? && old(sink.replies) == [] ==> r.Ok?
    ensures old(sink.accepted) <= sink.accepted
  {
    if file.None? {
      return Err(StatFailed);
    }
    var content := file.value;
    var w := new HashWriter(sink, sha1);
    ghost var size := Decimal(|content|);
    var s := w.WriteAll(Ascii("blob "));
    if s.Failure? {
      return Err(s.error);
    }
    assert w.hasher.input == Ascii("blob ");
    s := w.WriteAll(Decimal(|content|));
    if s.Failure? {
      return Err(s.error);
    }
    assert w.hasher.input == Ascii("blob ") + size;
    s := w.WriteAll([NUL]);
    if s.Failure? {
      return Err(s.error);
    }
    s := w.WriteAll(content);
    if s.Failure? {
      return Err(s.error);
    }
    assert w.hasher.input == Ascii("blob ") + size + [NUL] + content;
    s := sink.Flush();
    if s.Failure? {
      return Err(s.error);
    }
    BlobStream(content);
    assert w.hasher.input == Encode(Blob, content);
    r := Ok(Hex(w.hasher.Finalize()));
  }

  /** `invoke`: with `write`, stage the blob stream in the temporary file
      (created before the input is stat'ed) and move it to the digest's
      path; without, hash into `io::sink()`, which takes everything. */
  method Invoke(store: ObjectStore, write: bool, file: Option<seq<Byte>>, device: seq<Reply>)
    returns (r: Result<seq<Byte>>)
    modifies store
    ensures r.Ok? ==> file.Some? && r.value == Hex(store.sha1(Encode(Blob, file.value)))
    ensures !write ==> store.files == old(store.files) && store.dirs == old(store.dirs)
    ensures !write ==> (r.Ok? <==> file.Some?)
    ensures write && r.Ok? ==>
      var d := store.sha1(Encode(Blob, file.value));
      store.files == (old(store.files) - {Temporary})[DigestPath(d) := Encode(Blob, file.value)]
      && store.dirs == old(store.dirs) + {FanOutDir(Hex(d))}
    ensures write && file.None? ==> store.files == old(store.files)[Temporary := []] && r == Err(StatFailed)
    ensures write && r.Err? ==>
      && store.dirs == old(store.dirs)
      && Temporary in store.files
      && store.files - {Temporary} == old(store.files) - {Temporary}
    ensures file.Some? && device == [] ==> r.Ok?
  {
    if write {
      store.SetTemporary([]);
      var sink := new Sink(device);
      var h := WriteBlob(file, sink, store.sha1);
      store.SetTemporary(sink.accepted);
      if h.Err? {
        assert store.files - {Temporary} == old(store.files) - {Temporary};
        return h;
      }
      ghost var d := store.sha1(Encode(Blob, file.value));
      assert sink.accepted == Encode(Blob, file.value);
      assert ObjectPath(h.value) == Ok(DigestPath(d));
      ghost var before := store.files;
      assert before == old(store.files)[Temporary := Encode(Blob, file.value)];
      store.MoveIntoObjects(h.value);
      assert before - {Temporary} == old(store.files) - {Temporary};
      r := h;
    } else {
      var sink := new Sink([]);
      r := WriteBlob(file, sink, store.sha1);
    }
  }
}

=== FILE: ls_tree.dfy ===
/** ls-tree (src/commands/ls_tree.rs): read a tree object, then take its
    payload apart record by record (`read_until` a NUL, `read_exact` 20 hash
    bytes, split mode from name at the first space) and print each entry,
    either its name alone or `mode kind hash name` with the kind looked up
    in the store. Output is printed as it goes, so an error can follow some
    lines. */
module LsTree {
  import opened Results
  import opened Bytes
  import opened Objects
  import opened Store
  import opened WriteTree

  /** The outcome of reading one record from the payload reader. */
  datatype Step =
    | End                          // `read_until` read nothing: the payload is used up
    | Broken(error: Error)
    | Next(mode: seq<Byte>, name: seq<Byte>, hash: Digest, rest: seq<Byte>)

  /** One turn of the loop's reading part. Bytes without a NUL before the
      end, or a NUL followed by fewer than 20 bytes, leave `read_exact`
      short; a record without a space has no name. */
  function NextRecord(p: seq<Byte>): (s: Step)
    ensures s.End? <==> p == []
    ensures s == Broken(TruncatedEntry) <==> p != [] && (NUL !in p || |p| < FirstIndex(p, NUL).value + 21)
    ensures s == Broken(EntryWithoutName) <==>
      NUL in p && |p| >= FirstIndex(p, NUL).value + 21 && SPACE !in p[..FirstIndex(p, NUL).value]
    ensures s.Next? ==>
      && p == s.mode + [SPACE] + s.name + [NUL] + s.hash + s.rest
      && SPACE !in s.mode && NUL !in s.mode && NUL !in s.name
      && |s.rest| < |p|
  {
    if p == [] then End
    else
      match FirstIndex(p, NUL)
      case None => Broken(TruncatedEntry)
      case Some(i) =>
        if |p| - (i + 1) < 20 then Broken(TruncatedEntry)
        else
          var modeAndName := p[..i];
          match FirstIndex(modeAndName, SPACE)
          case None => Broken(EntryWithoutName)
          case Some(j) =>
            SplitTwice(p, i, j, 20);
            Next(modeAndName[..j], modeAndName[j + 1..], p[i + 1..i + 21], p[i + 21..])
  }

  /** Records the parser reads back: no NUL in the name, and no space or NUL
      in the mode (the name may hold spaces). */
  predicate Parsable(r: Record)
  {
    NUL !in r.name && SPACE !in r.mode && NUL !in r.mode
  }

  /** Reading a record written by write-tree gives back its mode, name and
      hash, and leaves the reader just after it. */
  lemma NextRecordOfRecord(r: Record, tail: seq<Byte>)
    requires Parsable(r)
    ensures NextRecord(RecordBytes(r) + tail) == Next(r.mode, r.name, r.hash, tail)
  {
    var modeAndName := r.mode + [SPACE] + r.name;
    var p := modeAndName + [NUL] + r.hash + tail;
    assert RecordBytes(r) + tail == p;
    var i := |modeAndName|;
    assert p[..i] == modeAndName;
    FirstIndexAt(p, NUL, i);
    assert modeAndName[..|r.mode|] == r.mode;
    FirstIndexAt(modeAndName, SPACE, |r.mode|);
    assert modeAndName[|r.mode| + 1..] == r.name;
    assert p[i + 1..i + 21] == r.hash;
    assert p[i + 21..] == tail;
  }

  /** The records of a payload, in order, or the error that stops the loop. */
  function Parse(p: seq<Byte>): Result<seq<Record>>
    decreases |p|
  {
    match NextRecord(p)
    case End => Ok([])
    case Broken(e) => Err(e)
    case Next(mode, name, hash, rest) =>
      match Parse(rest)
      case Err(e) => Err(e)
      case Ok(rs) => Ok([Record(mode, name, hash)] + rs)
  }

  /** Round trip with write-tree: parsing a payload gives back the records
      it was built from, in order. */
  lemma {:induction false} ParsePayload(rs: seq<Record>)
    requires forall r | r in rs :: Parsable(r)
    ensures Parse(Payload(rs)) == Ok(rs)
  {
    if rs != [] {
      NextRecordOfRecord(rs[0], Payload(rs[1..]));
      ParsePayload(rs[1..]);
      assert rs == [rs[0]] + rs[1..];
    }
  }

  /** `{mode:0>6}`: right-aligned in a field six characters wide, filled
      with '0' on the left; a mode already that wide stays as it is. */
  function PadMode(mode: seq<Byte>): (padded: seq<Byte>)
    ensures |padded| >= |mode| && padded[|padded| - |mode|..] == mode
    ensures forall i | 0 <= i < |padded| - |mode| :: padded[i] == ZERO
    ensures CharCount(padded) == if CharCount(mode) < 6 then 6 else CharCount(mode)
  {
    var pad := if CharCount(mode) < 6 then 6 - CharCount(mode) else 0;
    ZerosCharCount(pad, mode);
    Zeros(pad) + mode
  }

  function Zeros(n: nat): seq<Byte>
  {
    seq(n, _ => ZERO)
  }

  /** Each '0' in front adds one character. */
  lemma {:induction false} ZerosCharCount(n: nat, s: seq<Byte>)
    ensures CharCount(Zeros(n) + s) == n + CharCount(s)
  {
    if n > 0 {
      assert (Zeros(n) + s)[0] == ZERO;
      assert (Zeros(n) + s)[1..] == Zeros(n - 1) + s;
      ZerosCharCount(n - 1, s);
    } else {
      assert Zeros(n) + s == s;
    }
  }

  /** Every mode write-tree writes comes out six bytes wide: "40000" as
      "040000", the others as they are. */
  lemma PaddedModes(e: TreeEntries.Entry)
    ensures |PadMode(ModeOf(e))| == 6
    ensures e.Dir? ==> PadMode(ModeOf(e)) == Ascii("040000")
    ensures e.File? ==> PadMode(ModeOf(e)) == ModeOf(e)
  {
    AsciiCharCount(ModeOf(e));
  }

  /** One line of the full listing. */
  function FullLine(mode: seq<Byte>, kind: Kind, hash: Digest, name: seq<Byte>): seq<Byte>
  {
    PadMode(mode) + [SPACE] + KindName(kind) + [SPACE] + Hex(hash) + [SPACE] + name + [NEWLINE]
  }

  /** `out` printed in front of what follows. */
  function Prepend(out: seq<Byte>, rest: Outcome): Outcome
  {
    Outcome(out + rest.stdout, rest.status)
  }

  /** What the loop prints for the rest `p` of the payload and how it ends.
      The full format needs the mode to be UTF-8 and reads the object the
      hash names, to print its kind. */
  function Listing(nameOnly: bool, files: Files, p: seq<Byte>): Outcome
    decreases |p|
  {
    match NextRecord(p)
    case End => Outcome([], Success)
    case Broken(e) => Outcome([], Failure(e))
    case Next(mode, name, hash, rest) =>
      if nameOnly then Prepend(name + [NEWLINE], Listing(nameOnly, files, rest))
      else if !ValidUtf8(mode) then Outcome([], Failure(ModeNotUtf8))
      else
        match ReadObject(files, Hex(hash))
        case Err(e) => Outcome([], Failure(e))
        case Ok(stored) => Prepend(FullLine(mode, stored.kind, hash, name), Listing(nameOnly, files, rest))
  }

  /** `invoke`: only a tree is listed. */
  function Run(nameOnly: bool, files: Files, hash: seq<Byte>): Outcome
  {
    match ReadObject(files, hash)
    case Err(e) => Outcome([], Failure(e))
    case Ok(stored) =>
      if stored.kind != Tree then Outcome([], Failure(NotATree))
      else Listing(nameOnly, files, stored.payload)
  }

  lemma PrependNothing(rest: Outcome)
    ensures Prepend([], rest) == rest
  {
    assert [] + rest.stdout == rest.stdout;
  }

  lemma PrependTwice(first: seq<Byte>, second: seq<Byte>, rest: Outcome)
    ensures Prepend(first, Prepend(second, rest)) == Prepend(first + second, rest)
  {
    assert first + (second + rest.stdout) == first + second + rest.stdout;
  }

  /** The names of the records, each on its own line. */
  function NameLines(rs: seq<Record>): seq<Byte>
  {
    if rs == [] then [] else rs[0].name + [NEWLINE] + NameLines(rs[1..])
  }

  /** The name-only listing of a payload that starts with whole records
      prints their names in order, then goes on with what follows them. */
  lemma {:induction false} NameListingOfRecords(files: Files, rs: seq<Record>, tail: seq<Byte>)
    requires forall r | r in rs :: Parsable(r)
    ensures Listing(true, files, Payload(rs) + tail) == Prepend(NameLines(rs), Listing(true, files, tail))
  {
    var after := Listing(true, files, tail);
    if rs == [] {
      assert Payload(rs) + tail == tail;
      assert Prepend(NameLines(rs), after) == after;
    } else {
      var r, rest := rs[0], Payload(rs[1..]) + tail;
      assert Payload(rs) + tail == RecordBytes(r) + rest;
      NextRecordOfRecord(r, rest);
      assert Listing(true, files, Payload(rs) + tail)
          == Prepend(r.name + [NEWLINE], Listing(true, files, rest));
      NameListingOfRecords(files, rs[1..], tail);
      assert NameLines(rs) == r.name + [NEWLINE] + NameLines(rs[1..]);
      PrependTwice(r.name + [NEWLINE], NameLines(rs[1..]), after);
    }
  }

  /** The name-only listing of a whole payload prints every name and
      succeeds; a payload cut inside a record's hash, or ending in bytes
      with no NUL, prints the names before the damage and then fails. */
  lemma NameListing(files: Files, rs: seq<Record>, tail: seq<Byte>)
    requires forall r | r in rs :: Parsable(r)
    ensures Listing(true, files, Payload(rs)) == Outcome(NameLines(rs), Success)
    ensures tail != [] && (NUL !in tail || |tail| < FirstIndex(tail, NUL).value + 21) ==>
      Listing(true, files, Payload(rs) + tail) == Outcome(NameLines(rs), Failure(TruncatedEntry))
  {
    NameListingOfRecords(files, rs, []);
    assert Payload(rs) + [] == Payload(rs);
    NameListingOfRecords(files, rs, tail);
  }

  /** The lines of the full listing of records whose objects can be read. */
  function FullLines(files: Files, rs: seq<Record>): seq<Byte>
    requires forall r | r in rs :: ReadObject(files, Hex(r.hash)).Ok?
  {
    if rs == [] then []
    else
      FullLine(rs[0].mode, ReadObject(files, Hex(rs[0].hash)).value.kind, rs[0].hash, rs[0].name)
      + FullLines(files, rs[1..])
  }

  /** The full listing of a payload whose modes are UTF-8 and whose objects
      can all be read prints one line per record, in order, and succeeds. */
  lemma {:induction false} FullListing(files: Files, rs: seq<Record>)
    requires forall r | r in rs :: Parsable(r) && ValidUtf8(r.mode) && ReadObject(files, Hex(r.hash)).Ok?
    ensures Listing(false, files, Payload(rs)) == Outcome(FullLines(files, rs), Success)
  {
    if rs != [] {
      NextRecordOfRecord(rs[0], Payload(rs[1..]));
      FullListing(files, rs[1..]);
    }
  }

  /** A stored object of another kind is refused without printing. */
  lemma OnlyTreesAreListed(nameOnly: bool, files: Files, d: Digest, k: Kind, payload: seq<Byte>)
    requires k != Tree && |payload| < U64_LIMIT
    requires DigestPath(d) in files && files[DigestPath(d)] == Encode(k, payload)
    ensures Run(nameOnly, files, Hex(d)) == Outcome([], Failure(NotATree))
  {
    ReadStored(files, d, k, payload);
  }

  /** The tree write-tree stores for a well-named directory is listed back
      by `ls-tree --name-only` as the names it kept, in git's order. */
  lemma ListsWrittenTree(files: Files, sha1: seq<Byte> -> Digest, d: Digest, children: seq<TreeEntries.Entry>)
    requires TreeEntries.WellNamed(children)
    requires |TreePayload(sha1, children)| < U64_LIMIT
    requires DigestPath(d) in files && files[DigestPath(d)] == Encode(Tree, TreePayload(sha1, children))
    ensures Run(true, files, Hex(d))
            == Outcome(NameLines(Records(sha1, TreeEntries.SortEntries(children))), Success)
  {
    var sorted := TreeEntries.SortEntries(children);
    ReadStored(files, d, Tree, TreePayload(sha1, children));
    forall r | r in Records(sha1, sorted) ensures Parsable(r) {
      RecordsAreParsable(sha1, sorted, r);
    }
    NameListing(files, Records(sha1, sorted), []);
  }

  /** The records write-tree makes carry the names of their entries and one
      of its four modes. */
  lemma {:induction false} RecordsAreParsable(sha1: seq<Byte> -> Digest, es: seq<TreeEntries.Entry>, r: Record)
    requires forall e | e in multiset(es) :: NUL !in e.name
    requires r in Records(sha1, es)
    ensures Parsable(r)
    decreases |es|
  {
    if es != [] {
      assert es[0] in multiset(es);
      assert multiset(es) == multiset{es[0]} + multiset(es[1..]) by {
        assert es == [es[0]] + es[1..];
      }
      if r !in Records(sha1, es[1..]) {
        assert RecordOf(sha1, es[0]) == Some(r);
      } else {
        RecordsAreParsable(sha1, es[1..], r);
      }
    }
  }

  /** `invoke`: the loop reads one record per turn from the payload reader
      and prints it, until the reader is used up or a record is broken. */
  method Invoke(nameOnly: bool, files: Files, hash: seq<Byte>) returns (out: Outcome)
    ensures out == Run(nameOnly, files, hash)
  {
    var read := ReadObject(files, hash);
    if read.Err? {
      return Outcome([], Failure(read.error));
    }
    var stored := read.value;
    if stored.kind != Tree {
      return Outcome([], Failure(NotATree));
    }
    var stdout: seq<Byte> := [];
    var reader := stored.payload;
    PrependNothing(Listing(nameOnly, files, reader));
    while true
      invariant Listing(nameOnly, files, stored.payload) == Prepend(stdout, Listing(nameOnly, files, reader))
      decreases |reader|
    {
      var step := NextRecord(reader);
      match step
      case End =>
        AppendEmpty(stdout);
        return Outcome(stdout, Success);
      case Broken(e) =>
        AppendEmpty(stdout);
        return Outcome(stdout, Failure(e));
      case Next(mode, name, entryHash, rest) =>
        var line: seq<Byte>;
        if nameOnly {
          line := name + [NEWLINE];
        } else {
          if !ValidUtf8(mode) {
            AppendEmpty(stdout);
            return Outcome(stdout, Failure(ModeNotUtf8));
          }
          var entry := ReadObject(files, Hex(entryHash));
          if entry.Err? {
            AppendEmpty(stdout);
            return Outcome(stdout, Failure(entry.error));
          }
          line := FullLine(mode, entry.value.kind, entryHash, name);
        }
        assert Listing(nameOnly, files, reader) == Prepend(line, Listing(nameOnly, files, rest));
        PrependTwice(stdout, line, Listing(nameOnly, files, rest));
        stdout := stdout + line;
        reader := rest;
    }
  }
}

=== FILE: objects.dfy ===
/** The loose-object format of src/objects.rs: the `Kind` of an object, the
    serialized form `"<kind> <size>\0<payload>"`, the parse of that form
    by `Object::read`, and the path an object is stored under.
    Streams are modelled as the decompressed byte sequences they yield. */
module Objects {
  import opened Results
  import opened Bytes

  /** A SHA-1 digest: 20 raw bytes. */
  type Digest = d: seq<Byte> | |d| == 20 witness seq(20, _ => 0)

  datatype Kind = Blob | Tree | Commit

  /** `impl Display for Kind`. */
  function KindName(k: Kind): (s: seq<Byte>)
    ensures |s| > 0 && IsAscii(s) && SPACE !in s && NUL !in s
  {
    match k
    case Blob => Ascii("blob")
    case Tree => Ascii("tree")
    case Commit => Ascii("commit")
  }

  /** The `match kind` of `Object::read`: only the three known names map
      to a kind; anything else is reported, not a crash. */
  function KindFromName(s: seq<Byte>): Option<Kind>
  {
    if s == Ascii("blob") then Some(Blob)
    else if s == Ascii("tree") then Some(Tree)
    else if s == Ascii("commit") then Some(Commit)
    else None
  }

  /** Displaying a kind and matching the name gives the kind back, and no
      other name is accepted. */
  lemma KindNameRoundTrip(k: Kind, s: seq<Byte>)
    ensures KindFromName(KindName(k)) == Some(k)
    ensures KindFromName(s) == Some(k) <==> s == KindName(k)
  {
    assert Ascii("blob")[0] != Ascii("tree")[0];
    assert Ascii("blob") != Ascii("commit");
    assert Ascii("tree") != Ascii("commit");
  }

  /** An object as `Object::read` hands it out: its kind, the size its
      header declares, and what its size-capped reader yields. */
  datatype Object = Object(kind: Kind, expectedSize: nat, payload: seq<Byte>)

  /** The uncompressed serialized form that is hashed and stored:
      `"<kind> <decimal payload length>\0"` followed by the payload. */
  function Encode(k: Kind, payload: seq<Byte>): seq<Byte>
  {
    KindName(k) + [SPACE] + Decimal(|payload|) + [NUL] + payload
  }

  /** hash-object writes the blob header as the literal "blob " and then
      the decimal length and a NUL: that is the serialized form. */
  lemma BlobStream(content: seq<Byte>)
    ensures Ascii("blob ") + Decimal(|content|) + [NUL] + content == Encode(Blob, content)
  {
    BlobLiteral(Decimal(|content|), content);
  }

  lemma BlobLiteral(size: seq<Byte>, content: seq<Byte>)
    ensures Ascii("blob ") + size + [NUL] + content == KindName(Blob) + [SPACE] + size + [NUL] + content
  {
    assert Ascii("blob ") == KindName(Blob) + [SPACE];
  }

  /** The parts of a header as split by `read_until(0)` and `split_once(' ')`. */
  datatype Header = Header(kindName: seq<Byte>, sizeText: seq<Byte>, rest: seq<Byte>)

  /** Reads up to and including the first NUL (a stream without one makes
      `CStr::from_bytes_with_nul(..).expect(..)` panic), requires the header
      to be UTF-8, and splits it at its first space. `rest` is everything
      the stream holds after the NUL. There is no bound on header length. */
  function SplitHeader(data: seq<Byte>): (r: Result<Header>)
    ensures r == Err(Panic) <==> NUL !in data
    ensures r.Ok? ==>
      && data == r.value.kindName + [SPACE] + r.value.sizeText + [NUL] + r.value.rest
      && NUL !in r.value.kindName && NUL !in r.value.sizeText && SPACE !in r.value.kindName
      && ValidUtf8(r.value.kindName + [SPACE] + r.value.sizeText)
    ensures FirstIndex(data, NUL).Some? ==>
      var header := data[..FirstIndex(data, NUL).value];
      && (r == Err(HeaderNotUtf8) <==> !ValidUtf8(header))
      && (r == Err(HeaderWithoutSpace) <==> ValidUtf8(header) && SPACE !in header)
  {
    match FirstIndex(data, NUL)
    case None => Err(Panic)
    case Some(i) =>
      var header := data[..i];
      if !ValidUtf8(header) then Err(HeaderNotUtf8)
      else
        match FirstIndex(header, SPACE)
        case None => Err(HeaderWithoutSpace)
        case Some(j) =>
          assert header == header[..j] + [SPACE] + header[j + 1..];
          assert data == header + [NUL] + data[i + 1..];
          Ok(Header(header[..j], header[j + 1..], data[i + 1..]))
  }

  /** Conversely, a stream laid out as a header followed by anything splits
      at that header's NUL and space. */
  lemma SplitHeaderOf(kindName: seq<Byte>, sizeText: seq<Byte>, rest: seq<Byte>)
    requires NUL !in kindName && NUL !in sizeText && SPACE !in kindName
    requires ValidUtf8(kindName + [SPACE] + sizeText)
    ensures SplitHeader(kindName + [SPACE] + sizeText + [NUL] + rest)
            == Ok(Header(kindName, sizeText, rest))
  {
    var header := kindName + [SPACE] + sizeText;
    var data := header + [NUL] + rest;
    assert data[..|header|] == header;
    FirstIndexAt(data, NUL, |header|);
    assert header[..|kindName|] == kindName;
    FirstIndexAt(header, SPACE, |kindName|);
    assert header[|kindName| + 1..] == sizeText;
    assert data[|header| + 1..] == rest;
  }

  /** `Object::read` once the file is open: split the header, map the kind
      name, parse the size as `u64`, and cap the payload reader at that many
      bytes (`take(size)`), however long the stream is. No size check here. */
  function Decode(data: seq<Byte>): (r: Result<Object>)
    ensures r == Err(Panic) <==> NUL !in data
    ensures r.Ok? <==>
      && SplitHeader(data).Ok?
      && KindFromName(SplitHeader(data).value.kindName).Some?
      && ParseU64(SplitHeader(data).value.sizeText).Some?
    ensures SplitHeader(data).Err? ==> r == Err(SplitHeader(data).error)
    ensures SplitHeader(data).Ok? && KindFromName(SplitHeader(data).value.kindName).None? ==>
      r == Err(UnknownKind(SplitHeader(data).value.kindName))
    ensures
      (SplitHeader(data).Ok? && KindFromName(SplitHeader(data).value.kindName).Some? &&
       ParseU64(SplitHeader(data).value.sizeText).None?) ==> r == Err(InvalidSize)
    ensures r.Ok? ==>
      && ParseU64(SplitHeader(data).value.sizeText) == Some(r.value.expectedSize)
      && KindName(r.value.kind) == SplitHeader(data).value.kindName
      && r.value.expectedSize < U64_LIMIT
      && |r.value.payload| == Min(r.value.expectedSize, |SplitHeader(data).value.rest|)
      && |r.value.payload| <= r.value.expectedSize
      && r.value.payload <= SplitHeader(data).value.rest
      && (|r.value.payload| == r.value.expectedSize <==> |SplitHeader(data).value.rest| >= r.value.expectedSize)
  {
    match SplitHeader(data)
    case Err(e) => Err(e)
    case Ok(h) =>
      match KindFromName(h.kindName)
      case None => Err(UnknownKind(h.kindName))
      case Some(k) =>
        KindNameRoundTrip(k, h.kindName);
        match ParseU64(h.sizeText)
        case None => Err(InvalidSize)
        case Some(size) => Ok(Object(k, size, h.rest[..Min(size, |h.rest|)]))
  }

  /** Round trip: decoding the serialized form of an object, followed by
      any trailing bytes, gives back its kind, its size and exactly its
      payload. */
  lemma DecodeEncode(k: Kind, payload: seq<Byte>, trailing: seq<Byte>)
    requires |payload| < U64_LIMIT
    ensures Decode(Encode(k, payload) + trailing) == Ok(Object(k, |payload|, payload))
  {
    var name, size := KindName(k), Decimal(|payload|);
    var data, rest := Encode(k, payload) + trailing, payload + trailing;
    assert data == name + [SPACE] + size + [NUL] + rest by {
      AppendAssoc(name + [SPACE] + size + [NUL], payload, trailing);
    }
    assert SplitHeader(data) == Ok(Header(name, size, rest)) by {
      assert IsAscii(name + [SPACE] + size);
      AsciiIsUtf8(name + [SPACE] + size);
      SplitHeaderOf(name, size, rest);
    }
    KindNameRoundTrip(k, name);
    ParseDecimal(|payload|);
    assert rest[..|payload|] == payload;
  }

  /** A header whose size text has a second space is rejected: as an
      invalid size when the kind is known. */
  lemma DecodeRejectsSecondSpace(kindName: seq<Byte>, before: seq<Byte>, after: seq<Byte>, rest: seq<Byte>)
    requires NUL !in kindName && SPACE !in kindName && NUL !in before && NUL !in after
    requires ValidUtf8(kindName + [SPACE] + before + [SPACE] + after)
    ensures Decode(kindName + [SPACE] + before + [SPACE] + after + [NUL] + rest).Err?
    ensures KindFromName(kindName).Some? ==>
      Decode(kindName + [SPACE] + before + [SPACE] + after + [NUL] + rest) == Err(InvalidSize)
  {
    var sizeText := before + [SPACE] + after;
    assert kindName + [SPACE] + before + [SPACE] + after == kindName + [SPACE] + sizeText by {
      AppendAssoc(kindName + [SPACE], before + [SPACE], after);
      AppendAssoc(kindName + [SPACE], before, [SPACE]);
    }
    assert SplitHeader(kindName + [SPACE] + sizeText + [NUL] + rest) == Ok(Header(kindName, sizeText, rest)) by {
      SplitHeaderOf(kindName, sizeText, rest);
    }
    assert SPACE in sizeText by {
      assert sizeText[|before|] == SPACE;
    }
    ParseRejectsSpace(sizeText);
  }

  const ObjectsDir: seq<Byte> := Ascii(".git/objects/")

  /** `format!(".git/objects/{}/{}", &hash[..2], &hash[2..])`: slicing a
      `&str` panics when it is shorter than 2 bytes or byte 2 falls inside a
      UTF-8 sequence. No abbreviated hashes are resolved. */
  function ObjectPath(hash: seq<Byte>): (r: Result<seq<Byte>>)
    ensures r.Ok? <==> |hash| >= 2 && (|hash| > 2 ==> !IsContinuation(hash[2]))
    ensures r.Err? ==> r == Err(Panic)
    ensures r.Ok? ==> |r.value| == |ObjectsDir| + |hash| + 1
  {
    if |hash| < 2 || (|hash| > 2 && IsContinuation(hash[2])) then Err(Panic)
    else Ok(ObjectsDir + hash[..2] + [SLASH] + hash[2..])
  }

  /** Two hashes that name the same path are the same hash. */
  lemma ObjectPathInjective(a: seq<Byte>, b: seq<Byte>)
    requires ObjectPath(a).Ok? && ObjectPath(a) == ObjectPath(b)
    ensures a == b
  {
    var p := ObjectPath(a).value;
    var n := |ObjectsDir|;
    assert a[..2] == p[n..n + 2] == b[..2];
    assert a[2..] == p[n + 3..] == b[2..];
    assert a == a[..2] + a[2..];
    assert b == b[..2] + b[2..];
  }

  /** The path an object with digest `d` is stored under. */
  function DigestPath(d: Digest): (p: seq<Byte>)
    ensures ObjectPath(Hex(d)) == Ok(p)
  {
    HexIsAscii(d);
    ObjectPath(Hex(d)).value
  }

  /** Distinct digests are stored under distinct paths. */
  lemma DigestPathInjective(a: Digest, b: Digest)
    requires DigestPath(a) == DigestPath(b)
    ensures a == b
  {
    ObjectPathInjective(Hex(a), Hex(b));
    HexInjective(a, b);
  }
}

=== FILE: results.dfy ===
/** Option, Result and the error kinds the commands report.
    Errors carry no message text; each variant stands for one `bail!`,
    `ensure!`, `context` or panic site of the program. */
module Results {

  datatype Option<+T> = None | Some(value: T)

  /** Every way a command of the program can stop early. */
  datatype Error =
    | Panic                         // a Rust panic: `.expect` on a broken assumption, an out-of-range slice
    | NotFound(path: seq<int>)      // `File::open` on a path the store does not hold
    | HeaderNotUtf8                 // object header is not valid UTF-8
    | HeaderWithoutSpace            // object header has no ' ' between kind and size
    | UnknownKind(name: seq<int>)   // kind name other than blob/tree/commit
    | UnprintableKind(name: seq<int>) // cat-file: any kind other than blob
    | InvalidSize                   // size text is not a u64
    | SizeMismatch(expected: nat, actual: nat)
    | ModeRequired                  // cat-file invoked without -p
    | NotATree                      // ls-tree on a blob or commit
    | TruncatedEntry                // ls-tree: fewer than 20 hash bytes after a record's NUL
    | EntryWithoutName              // ls-tree: record without a space
    | ModeNotUtf8                   // ls-tree: mode bytes are not valid UTF-8
    | EmptyTree                     // write-tree on a directory that yields no entries
    | EnvNotUtf8(variable: seq<int>) // $NAME or $EMAIL is not valid UTF-8
    | ClockBeforeEpoch              // system time earlier than the UNIX epoch
    | StatFailed                    // metadata of the input file could not be read
    | WriteZero                     // the sink accepted 0 bytes of a non-empty write
    | Interrupted                   // a device call was interrupted and may be retried
    | Io(code: nat)                 // a failure reported by an output device

  datatype Result<+T> = Ok(value: T) | Err(error: Error)

  /** Outcome of a command that returns no value. */
  datatype Status = Success | Failure(error: Error)
}

=== FILE: store.dfy ===
/** The object store on disk: `.git/objects/<2 hex>/<38 hex>` files holding
    serialized objects, the shared `temporary` file objects are staged in,
    and the reads of `Object::read` and cat-file. File contents are kept
    decompressed; zlib is not part of this model. */
module Store {
  import opened Results
  import opened Bytes
  import opened Objects

  /** Path to file contents (after decompression). */
  type Files = map<seq<Byte>, seq<Byte>>

  /** The name of the staging file, relative to the working directory. */
  const Temporary: seq<Byte> := Ascii("temporary")

  /** `File::open(format!(".git/objects/{}/{}", ..))` and decompression:
      the stream stored for `hash`, a panic for a hash too short to slice,
      and a lookup error for a path that holds nothing. */
  function OpenObject(files: Files, hash: seq<Byte>): (r: Result<seq<Byte>>)
    ensures r.Ok? <==> ObjectPath(hash).Ok? && ObjectPath(hash).value in files
    ensures r.Ok? ==> r.value == files[ObjectPath(hash).value]
    ensures ObjectPath(hash).Err? ==> r == Err(Panic)
  {
    match ObjectPath(hash)
    case Err(e) => Err(e)
    case Ok(p) => if p in files then Ok(files[p]) else Err(NotFound(p))
  }

  /** What a command printed to stdout before it ended, and how it ended. */
  datatype Outcome = Outcome(stdout: seq<Byte>, status: Status)

  /** `Object::read(hash)`. */
  function ReadObject(files: Files, hash: seq<Byte>): Result<Object>
  {
    match OpenObject(files, hash)
    case Err(e) => Err(e)
    case Ok(data) => Decode(data)
  }

  /** What is stored at an object's path is read back as that object. */
  lemma ReadStored(files: Files, d: Digest, k: Kind, payload: seq<Byte>)
    requires |payload| < U64_LIMIT
    requires DigestPath(d) in files && files[DigestPath(d)] == Encode(k, payload)
    ensures ReadObject(files, Hex(d)) == Ok(Object(k, |payload|, payload))
  {
    DecodeEncode(k, payload, []);
    assert Encode(k, payload) + [] == Encode(k, payload);
  }

  /** The directory `create_dir_all(".git/objects/<2 hex>/")` makes for a hash. */
  function FanOutDir(hash: seq<Byte>): seq<Byte>
    requires |hash| >= 2
  {
    ObjectsDir + hash[..2] + [SLASH]
  }

  /** A path the store files an object under: `.git/objects/` followed by
      the hex digest of some hash, split after two characters. */
  ghost predicate IsDigestPath(p: seq<Byte>)
  {
    exists d: Digest :: p == DigestPath(d)
  }

  /** A fan-out directory made for some hash. */
  ghost predicate IsFanOutDir(dir: seq<Byte>)
  {
    exists d: Digest :: dir == FanOutDir(Hex(d))
  }

  /** From `before` to `after` only the staging file and object paths
      change: every other file keeps its content, and no other file appears. */
  ghost predicate KeepsOtherFiles(before: Files, after: Files)
  {
    && (forall p | p in before && p != Temporary && !IsDigestPath(p) :: p in after && after[p] == before[p])
    && (forall p | p in after && p !in before :: p == Temporary || IsDigestPath(p))
  }

  /** Directories are only ever added, and only fan-out directories. */
  ghost predicate OnlyFanOutDirsAdded(before: set<seq<Byte>>, after: set<seq<Byte>>)
  {
    before <= after && forall dir | dir in after && dir !in before :: IsFanOutDir(dir)
  }

  /** The file at `d`'s path holds bytes whose SHA-1 is `d`. */
  ghost predicate HoldsObject(sha1: seq<Byte> -> Digest, files: Files, d: Digest)
  {
    DigestPath(d) in files && sha1(files[DigestPath(d)]) == d
  }

  /** From `before` to `after`, every object path that appears or is
      rewritten holds bytes whose SHA-1 is the digest the path names. */
  ghost predicate WritesTrueObjects(sha1: seq<Byte> -> Digest, before: Files, after: Files)
  {
    forall d: Digest | DigestPath(d) in after && (DigestPath(d) !in before || after[DigestPath(d)] != before[DigestPath(d)]) ::
      sha1(after[DigestPath(d)]) == d
  }

  lemma DigestPathIsNotTemporary(d: Digest)
    ensures DigestPath(d) != Temporary
  {
    assert |DigestPath(d)| == |ObjectsDir| + 41;
  }

  /** An object survives a step that writes only true objects and removes
      nothing but the staging file. */
  lemma StillHolds(sha1: seq<Byte> -> Digest, d: Digest, before: Files, after: Files)
    requires HoldsObject(sha1, before, d)
    requires WritesTrueObjects(sha1, before, after) && before.Keys - {Temporary} <= after.Keys
    ensures HoldsObject(sha1, after, d)
  {
    DigestPathIsNotTemporary(d);
    assert DigestPath(d) in before.Keys - {Temporary};
  }

  lemma WritesTrueObjectsTransitive(sha1: seq<Byte> -> Digest, a: Files, b: Files, c: Files)
    requires WritesTrueObjects(sha1, a, b) && WritesTrueObjects(sha1, b, c)
    ensures WritesTrueObjects(sha1, a, c)
  {
  }

  lemma KeepsOtherFilesTransitive(a: Files, b: Files, c: Files)
    requires KeepsOtherFiles(a, b) && KeepsOtherFiles(b, c)
    ensures KeepsOtherFiles(a, c)
  {
  }

  lemma OnlyFanOutDirsAddedTransitive(a: set<seq<Byte>>, b: set<seq<Byte>>, c: set<seq<Byte>>)
    requires OnlyFanOutDirsAdded(a, b) && OnlyFanOutDirsAdded(b, c)
    ensures OnlyFanOutDirsAdded(a, c)
  {
  }

  class ObjectStore {
    /** SHA-1, left abstract: some function from bytes to 20-byte digests. */
    const sha1: seq<Byte> -> Digest
    var files: Files
    var dirs: set<seq<Byte>>

    constructor (sha1: seq<Byte> -> Digest, files: Files, dirs: set<seq<Byte>>)
      ensures this.sha1 == sha1 && this.files == files && this.dirs == dirs
    {
      this.sha1 := sha1;
      this.files := files;
      this.dirs := dirs;
    }

    /** `File::create("temporary")` (with `content == []`, truncating any
        earlier staging file) and the bytes written into it afterwards. */
    method SetTemporary(content: seq<Byte>)
      modifies this
      ensures files == old(files)[Temporary := content] && dirs == old(dirs)
    {
      files := files[Temporary := content];
    }

    /** `create_dir_all(".git/objects/<hex[..2]>/")` followed by
        `rename("temporary", ".git/objects/<hex[..2]>/<hex[2..]>")`: the
        staged bytes move to the hash's path, replacing any file there. */
    method MoveIntoObjects(hex: seq<Byte>)
      requires ObjectPath(hex).Ok? && Temporary in files
      modifies this
      ensures dirs == old(dirs) + {FanOutDir(hex)}
      ensures files == (old(files) - {Temporary})[ObjectPath(hex).value := old(files)[Temporary]]
    {
      dirs := dirs + {FanOutDir(hex)};
      var staged := files[Temporary];
      files := (files - {Temporary})[ObjectPath(hex).value := staged];
    }

    /** Storing an object: its serialized form is staged in the temporary
        file, hashed, and moved to the path named by the digest
        (write_tree's inline blob code; `Object::write_to_objects`, which
        is not part of this model, is taken to do the same). */
    method Put(k: Kind, payload: seq<Byte>) returns (d: Digest)
      modifies this
      ensures d == sha1(Encode(k, payload))
      ensures files == (old(files) - {Temporary})[DigestPath(d) := Encode(k, payload)]
      ensures dirs == old(dirs) + {FanOutDir(Hex(d))}
      ensures KeepsOtherFiles(old(files), files) && OnlyFanOutDirsAdded(old(dirs), dirs)
      ensures WritesTrueObjects(sha1, old(files), files)
    {
      SetTemporary(Encode(k, payload));
      d := sha1(Encode(k, payload));
      assert ObjectPath(Hex(d)) == Ok(DigestPath(d));
      MoveIntoObjects(Hex(d));
      forall e: Digest | DigestPath(e) == DigestPath(d)
        ensures e == d
      {
        DigestPathInjective(e, d);
      }
    }
  }
}

=== FILE: tree_entries.dfy ===
/** The directory entries write-tree lists and the order it puts them in
    (src/commands/write_tree.rs): git's name comparison, where a directory
    compares as if its name ended in '/', and the sort of a listing by it. */
module TreeEntries {
  import opened Results
  import opened Bytes

  /** A directory entry with what `read_dir` and `DirEntry::metadata` tell
      about it. `perm` is the `st_mode` word of a non-directory; `content`
      is what reading the file yields. */
  datatype Entry =
    | File(name: seq<Byte>, isSymlink: bool, perm: bv32, content: seq<Byte>)
    | Dir(name: seq<Byte>, children: seq<Entry>)

  /** Number of entries in a tree, counting itself: what recursion into a
      directory decreases. */
  function Size(e: Entry): nat
    decreases e
  {
    match e
    case File(_, _, _, _) => 1
    case Dir(_, children) => 1 + SizeOf(children)
  }

  function SizeOf(es: seq<Entry>): nat
    decreases es
  {
    if es == [] then 0 else Size(es[0]) + SizeOf(es[1..])
  }

  lemma {:induction false} SizeOfMember(es: seq<Entry>, i: nat)
    requires i < |es|
    ensures Size(es[i]) <= SizeOf(es)
  {
    if i > 0 {
      assert es[1..][i - 1] == es[i];
      SizeOfMember(es[1..], i - 1);
    }
  }

  // ---------------------------------------------------------------------
  // The comparator

  datatype Ordering = Less | Equal | Greater

  function Reverse(o: Ordering): Ordering
  {
    match o
    case Less => Greater
    case Equal => Equal
    case Greater => Less
  }

  /** `Ord for [u8]`: lexicographic, a proper prefix first. */
  function CmpBytes(a: seq<Byte>, b: seq<Byte>): Ordering
  {
    if a == [] && b == [] then Equal
    else if a == [] then Less
    else if b == [] then Greater
    else if a[0] < b[0] then Less
    else if a[0] > b[0] then Greater
    else CmpBytes(a[1..], b[1..])
  }

  /** `Ord for Option<u8>`: `None` before every byte. */
  function CmpNext(a: Option<Byte>, b: Option<Byte>): Ordering
  {
    match (a, b)
    case (None, None) => Equal
    case (None, Some(_)) => Less
    case (Some(_), None) => Greater
    case (Some(x), Some(y)) => if x < y then Less else if x > y then Greater else Equal
  }

  /** The byte `e` contributes at position `i` once its name is used up:
      its own byte, '/' for a directory, nothing for a file. */
  function NextByte(e: Entry, i: nat): Option<Byte>
  {
    if i < |e.name| then Some(e.name[i]) else if e.Dir? then Some(SLASH) else None
  }

  /** The `sort_unstable_by` closure: compare the common prefix of the names
      bytewise; equal-length names that agree are equal whatever their kinds;
      otherwise the byte after the common prefix decides. */
  function Compare(a: Entry, b: Entry): Ordering
  {
    var common := Min(|a.name|, |b.name|);
    match CmpBytes(a.name[..common], b.name[..common])
    case Equal =>
      if |a.name| == |b.name| then Equal
      else CmpNext(NextByte(a, common), NextByte(b, common))
    case o => o
  }

  /** The name git sorts an entry by: a directory's name with a '/' appended. */
  function Key(e: Entry): seq<Byte>
  {
    if e.Dir? then e.name + [SLASH] else e.name
  }

  lemma {:induction false} CmpBytesReverse(a: seq<Byte>, b: seq<Byte>)
    ensures CmpBytes(b, a) == Reverse(CmpBytes(a, b))
  {
    if a != [] && b != [] && a[0] == b[0] {
      CmpBytesReverse(a[1..], b[1..]);
    }
  }

  lemma {:induction false} CmpBytesEqual(a: seq<Byte>, b: seq<Byte>)
    ensures CmpBytes(a, b) == Equal <==> a == b
  {
    if a != [] && b != [] && a[0] == b[0] {
      CmpBytesEqual(a[1..], b[1..]);
      assert a == [a[0]] + a[1..] && b == [b[0]] + b[1..];
    }
  }

  lemma {:induction false} CmpBytesTransitive(a: seq<Byte>, b: seq<Byte>, c: seq<Byte>)
    requires CmpBytes(a, b) == Less && CmpBytes(b, c) == Less
    ensures CmpBytes(a, c) == Less
  {
    if a != [] && b != [] && c != [] && a[0] == b[0] && b[0] == c[0] {
      CmpBytesTransitive(a[1..], b[1..], c[1..]);
    }
  }

  /** Names that agree up to `k` and differ at `k` are ordered by that byte. */
  lemma {:induction false} CmpBytesAt(a: seq<Byte>, b: seq<Byte>, k: nat)
    requires k < |a| && k < |b| && a[..k] == b[..k] && a[k] != b[k]
    ensures CmpBytes(a, b) == (if a[k] < b[k] then Less else Greater)
  {
    if k > 0 {
      assert a[0] == a[..k][0] && b[0] == b[..k][0];
      assert a[1..][..k - 1] == a[1..k] && b[1..][..k - 1] == b[1..k];
      assert a[1..k] == a[..k][1..] && b[1..k] == b[..k][1..];
      CmpBytesAt(a[1..], b[1..], k - 1);
    }
  }

  /** Comparing two strings that start with equally long parts: the parts
      decide unless they are the same, and then the rest does. */
  lemma {:induction false} CmpBytesAppend(p: seq<Byte>, q: seq<Byte>, u: seq<Byte>, v: seq<Byte>)
    requires |p| == |q|
    ensures CmpBytes(p + u, q + v) == if p == q then CmpBytes(u, v) else CmpBytes(p, q)
  {
    if p == [] {
      assert p + u == u && q + v == v;
    } else {
      assert (p + u)[0] == p[0] && (q + v)[0] == q[0];
      assert (p + u)[1..] == p[1..] + u && (q + v)[1..] == q[1..] + v;
      CmpBytesAppend(p[1..], q[1..], u, v);
      if p[0] == q[0] && p[1..] == q[1..] {
        assert p == [p[0]] + p[1..] && q == [q[0]] + q[1..];
      }
    }
  }

  /** The comparator never contradicts itself: swapping its arguments
      reverses its answer. */
  lemma CompareReverse(a: Entry, b: Entry)
    ensures Compare(b, a) == Reverse(Compare(a, b))
  {
    var common := Min(|a.name|, |b.name|);
    CmpBytesReverse(a.name[..common], b.name[..common]);
  }

  /** For names without '/', the comparator is plain byte order on the
      names with '/' appended to directories. Two entries of one directory
      never share a name, so this is the order the listing is sorted in. */
  lemma CompareIsKeyOrder(a: Entry, b: Entry)
    requires SLASH !in a.name && SLASH !in b.name && a.name != b.name
    ensures Compare(a, b) == CmpBytes(Key(a), Key(b))
  {
    var c := Min(|a.name|, |b.name|);
    CmpBytesEqual(a.name[..c], b.name[..c]);
    if a.name[..c] != b.name[..c] {
      KeyOrderOfDifference(a, b);
    } else if |a.name| < |b.name| {
      assert a.name[..c] == a.name;
      KeyOrderOfPrefix(a, b);
    } else {
      assert b.name[..c] == b.name;
      assert |a.name| != |b.name|;
      KeyOrderOfPrefix(b, a);
      CompareReverse(b, a);
      CmpBytesReverse(Key(b), Key(a));
    }
  }

  /** `CompareIsKeyOrder` when the names differ in their common part. */
  lemma KeyOrderOfDifference(a: Entry, b: Entry)
    requires a.name[..Min(|a.name|, |b.name|)] != b.name[..Min(|a.name|, |b.name|)]
    ensures Compare(a, b) == CmpBytes(Key(a), Key(b))
  {
    var c := Min(|a.name|, |b.name|);
    var o := CmpBytes(a.name[..c], b.name[..c]);
    CmpBytesEqual(a.name[..c], b.name[..c]);
    assert o != Equal;
    assert Compare(a, b) == o;
    var sa: seq<Byte> := if a.Dir? then [SLASH] else [];
    var sb: seq<Byte> := if b.Dir? then [SLASH] else [];
    assert Key(a) == a.name + sa && Key(b) == b.name + sb;
    SplitAppend(a.name, c, sa);
    SplitAppend(b.name, c, sb);
    CmpBytesAppend(a.name[..c], b.name[..c], a.name[c..] + sa, b.name[c..] + sb);
  }

  /** `CompareIsKeyOrder` when the name of `a` is a proper prefix of the
      name of `b`. */
  lemma KeyOrderOfPrefix(a: Entry, b: Entry)
    requires |a.name| < |b.name| && a.name == b.name[..|a.name|] && SLASH !in b.name
    ensures Compare(a, b) == CmpBytes(Key(a), Key(b))
  {
    var c := |a.name|;
    CmpBytesEqual(a.name, b.name[..c]);
    assert a.name[..c] == a.name;
    var sa: seq<Byte> := if a.Dir? then [SLASH] else [];
    var sb: seq<Byte> := if b.Dir? then [SLASH] else [];
    var w := b.name[c..] + sb;
    assert Key(a) == a.name + sa;
    assert Key(b) == a.name + w;
    CmpBytesAppend(a.name, a.name, sa, w);
    assert w[0] == b.name[c] != SLASH;
    if a.Dir? {
      assert sa[1..] == [];
    }
  }

  /** Names that differ inside their common part are ordered by the first
      byte where they differ, whatever the kinds of the entries. */
  lemma CompareAtDifference(a: Entry, b: Entry, k: nat)
    requires k < |a.name| && k < |b.name| && a.name[..k] == b.name[..k] && a.name[k] != b.name[k]
    ensures Compare(a, b) == (if a.name[k] < b.name[k] then Less else Greater)
  {
    var c := Min(|a.name|, |b.name|);
    assert a.name[..c][..k] == a.name[..k] && b.name[..c][..k] == b.name[..k];
    CmpBytesAt(a.name[..c], b.name[..c], k);
  }

  /** Equal names compare equal, a file against a directory included; for
      names without '/' nothing else does. */
  lemma CompareEqual(a: Entry, b: Entry)
    requires SLASH !in a.name && SLASH !in b.name
    ensures Compare(a, b) == Equal <==> a.name == b.name
  {
    var c := Min(|a.name|, |b.name|);
    CmpBytesEqual(a.name[..c], b.name[..c]);
    if a.name != b.name {
      CompareIsKeyOrder(a, b);
      CmpBytesEqual(Key(a), Key(b));
    }
  }

  /** When one name runs out inside the other, a file sorts before the
      longer name ("foo" before "foo2"), and a directory sorts as '/'
      ("foo.txt" before the directory "foo", as '.' is below '/'). */
  lemma CompareRunsOut(a: Entry, b: Entry)
    requires |a.name| < |b.name| && a.name == b.name[..|a.name|]
    ensures a.File? ==> Compare(a, b) == Less
    ensures a.Dir? ==> Compare(a, b) == CmpNext(Some(SLASH), Some(b.name[|a.name|]))
  {
    CmpBytesEqual(a.name, b.name[..|a.name|]);
    assert a.name[..|a.name|] == a.name;
  }

  /** Among names without '/' that are pairwise different, the order is
      transitive. (Names must differ: the file "foo" sorts before "foo.txt",
      which sorts before the directory "foo", yet the two "foo" compare
      equal.) */
  lemma CompareTransitive(a: Entry, b: Entry, c: Entry)
    requires SLASH !in a.name && SLASH !in b.name && SLASH !in c.name && a.name != c.name
    requires Compare(a, b) == Less && Compare(b, c) == Less
    ensures Compare(a, c) == Less
  {
    CompareEqual(a, b);
    CompareEqual(b, c);
    CompareIsKeyOrder(a, b);
    CompareIsKeyOrder(b, c);
    CompareIsKeyOrder(a, c);
    CmpBytesTransitive(Key(a), Key(b), Key(c));
  }

  // ---------------------------------------------------------------------
  // Sorting a listing

  /** A listing sorted strictly ascending by the comparator. */
  predicate Sorted(s: seq<Entry>)
  {
    forall i, j :: 0 <= i < j < |s| ==> Compare(s[i], s[j]) == Less
  }

  /** What a directory listing can hold: names without '/' or NUL, no two
      entries with one name, and no entry twice. Stated on the multiset of
      entries, so every reordering of a listing has it too. */
  predicate WellNamed(es: seq<Entry>)
  {
    var m := multiset(es);
    && (forall x | x in m :: SLASH !in x.name && NUL !in x.name && m[x] == 1)
    && (forall x, y | x in m && y in m && x.name == y.name :: x == y)
  }

  /** Inserting `x` before the first entry it does not sort after. */
  function Insert(x: Entry, s: seq<Entry>): (r: seq<Entry>)
    ensures multiset(r) == multiset(s) + multiset{x}
    ensures SizeOf(r) == Size(x) + SizeOf(s)
  {
    if s == [] then [x]
    else if Compare(x, s[0]) != Greater then
      assert ([x] + s)[1..] == s;
      [x] + s
    else
      var r := [s[0]] + Insert(x, s[1..]);
      assert s == [s[0]] + s[1..];
      assert r[1..] == Insert(x, s[1..]);
      r
  }

  /** `sort_unstable_by` with the comparator, as an insertion sort: a
      reordering of the listing (see `SortSorted` and `SortedUnique` for why
      the choice of algorithm does not matter). */
  function SortEntries(es: seq<Entry>): (r: seq<Entry>)
    ensures multiset(r) == multiset(es)
    ensures SizeOf(r) == SizeOf(es)
  {
    if es == [] then []
    else
      assert es == [es[0]] + es[1..];
      Insert(es[0], SortEntries(es[1..]))
  }

  lemma {:induction false} InsertSorted(x: Entry, s: seq<Entry>)
    requires Sorted(s) && SLASH !in x.name
    requires forall y | y in s :: SLASH !in y.name && y.name != x.name
    ensures Sorted(Insert(x, s))
  {
    if s != [] {
      CompareEqual(x, s[0]);
      if Compare(x, s[0]) != Greater {
        InsertFront(x, s);
      } else {
        assert Sorted(s[1..]);
        InsertSorted(x, s[1..]);
        CompareReverse(x, s[0]);
        InsertBehind(x, s, Insert(x, s[1..]));
      }
    }
  }

  /** `x` sorts before the head of a sorted listing, hence before all of it. */
  lemma InsertFront(x: Entry, s: seq<Entry>)
    requires Sorted(s) && s != [] && SLASH !in x.name && Compare(x, s[0]) == Less
    requires forall y | y in s :: SLASH !in y.name && y.name != x.name
    ensures Sorted([x] + s)
  {
    var r := [x] + s;
    forall i, j | 0 <= i < j < |r| ensures Compare(r[i], r[j]) == Less {
      if i == 0 && j > 1 {
        assert s[j - 1] in s;
        CompareTransitive(x, s[0], s[j - 1]);
      }
    }
  }

  /** The head of a sorted listing sorts before `x`, hence before the sorted
      rest with `x` inserted. */
  lemma InsertBehind(x: Entry, s: seq<Entry>, tail: seq<Entry>)
    requires Sorted(s) && s != [] && Compare(s[0], x) == Less
    requires Sorted(tail) && multiset(tail) == multiset(s[1..]) + multiset{x}
    ensures Sorted([s[0]] + tail)
  {
    var r := [s[0]] + tail;
    forall j | 0 <= j < |tail| ensures Compare(s[0], tail[j]) == Less {
      assert tail[j] in multiset(tail);
      if tail[j] != x {
        assert tail[j] in multiset(s[1..]);
        var k :| 0 <= k < |s[1..]| && s[1..][k] == tail[j];
        assert s[k + 1] == tail[j];
      }
    }
    forall i, j | 0 <= i < j < |r| ensures Compare(r[i], r[j]) == Less {
      if i == 0 {
        assert r[j] == tail[j - 1];
      } else {
        assert r[i] == tail[i - 1] && r[j] == tail[j - 1];
      }
    }
  }

  lemma WellNamedTail(es: seq<Entry>)
    requires es != [] && WellNamed(es)
    ensures WellNamed(es[1..])
    ensures es[0] !in es[1..]
    ensures forall y | y in es[1..] :: SLASH !in y.name && y.name != es[0].name
  {
    var m, t := multiset(es), multiset(es[1..]);
    assert es == [es[0]] + es[1..];
    assert m == multiset{es[0]} + t;
    assert es[0] in m && m[es[0]] == 1;
    assert t[es[0]] == 0;
    forall x | x in t
      ensures x in m && t[x] <= m[x]
    {
    }
  }

  /** Sorting a well-named listing leaves it strictly ascending. */
  lemma {:induction false} SortSorted(es: seq<Entry>)
    requires WellNamed(es)
    ensures Sorted(SortEntries(es))
  {
    if es != [] {
      WellNamedTail(es);
      SortSorted(es[1..]);
      var s := SortEntries(es[1..]);
      forall y | y in s ensures SLASH !in y.name && y.name != es[0].name {
        assert y in multiset(s);
      }
      InsertSorted(es[0], s);
    }
  }

  /** Two strictly ascending orderings of the same entries are the same
      sequence: a sort by this comparator has only one possible outcome. */
  lemma {:induction false} SortedUnique(s: seq<Entry>, t: seq<Entry>)
    requires Sorted(s) && Sorted(t) && multiset(s) == multiset(t)
    ensures s == t
  {
    if s != [] {
      assert t != [] by {
        assert s[0] in multiset(t);
      }
      if s[0] != t[0] {
        assert t[0] in multiset(s);
        var i :| 0 <= i < |s| && s[i] == t[0];
        assert s[0] in multiset(t);
        var j :| 0 <= j < |t| && t[j] == s[0];
        CompareReverse(s[0], t[0]);
        assert false;
      }
      assert s == [s[0]] + s[1..] && t == [t[0]] + t[1..];
      assert multiset(s[1..]) == multiset(s) - multiset{s[0]};
      assert multiset(t[1..]) == multiset(t) - multiset{t[0]};
      SortedUnique(s[1..], t[1..]);
    }
  }

  /** The sorted listing does not depend on the order `read_dir` produced. */
  lemma SortIgnoresListingOrder(a: seq<Entry>, b: seq<Entry>)
    requires WellNamed(a) && multiset(a) == multiset(b)
    ensures SortEntries(a) == SortEntries(b)
  {
    SortSorted(a);
    SortSorted(b);
    SortedUnique(SortEntries(a), SortEntries(b));
  }
}

=== FILE: write_tree.dfy ===
/** write-tree (src/commands/write_tree.rs): a directory becomes a tree
    object listing, in git's order, one `mode SP name NUL hash` record per
    kept entry; files are stored as blobs and subdirectories as trees,
    recursively. The directory is given as an `Entry` tree. */
module WriteTree {
  import opened Results
  import opened Bytes
  import opened Objects
  import opened Store
  import opened TreeEntries

  /** One record of a tree object. */
  datatype Record = Record(mode: seq<Byte>, name: seq<Byte>, hash: Digest)

  /** `mode`, a space, the name, a NUL and the 20 raw hash bytes. */
  function RecordBytes(r: Record): seq<Byte>
  {
    r.mode + [SPACE] + r.name + [NUL] + r.hash
  }

  /** The tree object's payload: the records back to back, with no count
      and no separator. */
  function Payload(rs: seq<Record>): seq<Byte>
  {
    if rs == [] then [] else RecordBytes(rs[0]) + Payload(rs[1..])
  }

  lemma {:induction false} PayloadSnoc(rs: seq<Record>, r: Record)
    ensures Payload(rs + [r]) == Payload(rs) + RecordBytes(r)
  {
    if rs == [] {
      assert [r][1..] == [];
    } else {
      assert (rs + [r])[1..] == rs[1..] + [r];
      PayloadSnoc(rs[1..], r);
    }
  }

  /** Every record takes at least 22 bytes, so a payload is empty exactly
      when there are no records. */
  lemma {:induction false} PayloadLength(rs: seq<Record>)
    ensures |Payload(rs)| >= 22 * |rs|
    ensures Payload(rs) == [] <==> rs == []
  {
    if rs != [] {
      PayloadLength(rs[1..]);
    }
  }

  const GitDir: seq<Byte> := Ascii(".git")

  const DirMode: seq<Byte> := Ascii("40000")
  const SymlinkMode: seq<Byte> := Ascii("120000")
  const ExecutableMode: seq<Byte> := Ascii("100755")
  const RegularMode: seq<Byte> := Ascii("100644")

  /** 0o111: the execute bits of owner, group and others. */
  const ExecuteBits: bv32 := 0x49

  /** Every mode is plain ASCII text of five or six bytes with no space and no NUL. */
  lemma PlainModes()
    ensures IsAscii(DirMode) && SPACE !in DirMode && NUL !in DirMode && |DirMode| == 5
    ensures IsAscii(SymlinkMode) && SPACE !in SymlinkMode && NUL !in SymlinkMode && |SymlinkMode| == 6
    ensures IsAscii(ExecutableMode) && SPACE !in ExecutableMode && NUL !in ExecutableMode && |ExecutableMode| == 6
    ensures IsAscii(RegularMode) && SPACE !in RegularMode && NUL !in RegularMode && |RegularMode| == 6
  {
    PrintableLiteral("40000");
    PrintableLiteral("120000");
    PrintableLiteral("100755");
    PrintableLiteral("100644");
  }

  /** The mode written for an entry: the directory test comes first, then
      the symlink test, then any execute bit. */
  function ModeOf(e: Entry): (m: seq<Byte>)
    ensures m == DirMode <==> e.Dir?
    ensures m == SymlinkMode <==> e.File? && e.isSymlink
    ensures m == ExecutableMode <==> e.File? && !e.isSymlink && e.perm & ExecuteBits != 0
    ensures m == RegularMode <==> e.File? && !e.isSymlink && e.perm & ExecuteBits == 0
    ensures IsAscii(m) && SPACE !in m && NUL !in m && 5 <= |m| <= 6
  {
    assert DirMode != SymlinkMode && DirMode != ExecutableMode && DirMode != RegularMode;
    assert SymlinkMode[1] != ExecutableMode[1] && SymlinkMode[1] != RegularMode[1];
    assert ExecutableMode[3] != RegularMode[3];
    PlainModes();
    if e.Dir? then DirMode
    else if e.isSymlink then SymlinkMode
    else if e.perm & ExecuteBits != 0 then ExecutableMode
    else RegularMode
  }

  // ---------------------------------------------------------------------
  // What write_tree_for computes, as functions of the directory

  /** The record an entry contributes, if any: none for ".git", none for a
      directory that yields no tree; a file's record names its blob. */
  function RecordOf(sha1: seq<Byte> -> Digest, e: Entry): Option<Record>
    decreases Size(e), 0
  {
    if e.name == GitDir then None
    else
      match e
      case Dir(name, children) =>
        (match TreeHash(sha1, children)
         case None => None
         case Some(h) => Some(Record(ModeOf(e), name, h)))
      case File(name, _, _, content) => Some(Record(ModeOf(e), name, sha1(Encode(Blob, content))))
  }

  /** The records an entry adds to its directory's payload: none or one. */
  function Contribution(sha1: seq<Byte> -> Digest, e: Entry): seq<Record>
    decreases Size(e), 1
  {
    match RecordOf(sha1, e)
    case None => []
    case Some(r) => [r]
  }

  /** The records of a listing, in its order. */
  function Records(sha1: seq<Byte> -> Digest, es: seq<Entry>): seq<Record>
    decreases SizeOf(es), 2
  {
    if es == [] then [] else Contribution(sha1, es[0]) + Records(sha1, es[1..])
  }

  /** The payload of the tree written for a directory with these entries. */
  function TreePayload(sha1: seq<Byte> -> Digest, children: seq<Entry>): seq<Byte>
    decreases SizeOf(children), 3
  {
    Payload(Records(sha1, SortEntries(children)))
  }

  /** `write_tree_for`'s result: the hash of the tree object, or `None` when
      the payload is empty. */
  function TreeHash(sha1: seq<Byte> -> Digest, children: seq<Entry>): Option<Digest>
    decreases SizeOf(children), 4
  {
    var payload := TreePayload(sha1, children);
    if payload == [] then None else Some(sha1(Encode(Tree, payload)))
  }

  lemma {:induction false} RecordsSnoc(sha1: seq<Byte> -> Digest, es: seq<Entry>, e: Entry)
    ensures Records(sha1, es + [e]) == Records(sha1, es) + Contribution(sha1, e)
    decreases |es|
  {
    if es == [] {
      assert [e][1..] == [];
      assert Records(sha1, [e]) == Contribution(sha1, e) + [];
    } else {
      assert (es + [e])[0] == es[0];
      assert (es + [e])[1..] == es[1..] + [e];
      RecordsSnoc(sha1, es[1..], e);
      var head, rest := Contribution(sha1, es[0]), Records(sha1, es[1..]);
      assert Records(sha1, es + [e]) == head + (rest + Contribution(sha1, e));
      assert head + (rest + Contribution(sha1, e)) == (head + rest) + Contribution(sha1, e);
    }
  }

  lemma {:induction false} RecordsEmpty(sha1: seq<Byte> -> Digest, es: seq<Entry>)
    ensures Records(sha1, es) == [] <==> forall e | e in es :: RecordOf(sha1, e).None?
    decreases |es|
  {
    if es != [] {
      RecordsEmpty(sha1, es[1..]);
      assert Records(sha1, es) == Contribution(sha1, es[0]) + Records(sha1, es[1..]);
      if RecordOf(sha1, es[0]).Some? {
        assert |Contribution(sha1, es[0])| == 1;
        assert es[0] in es;
      } else {
        assert Contribution(sha1, es[0]) == [];
        assert Records(sha1, es) == Records(sha1, es[1..]);
        assert forall e | e in es :: e == es[0] || e in es[1..];
      }
    }
  }

  /** A directory yields no tree exactly when each of its entries is ".git"
      or a subdirectory that itself yields no tree; in particular an empty
      directory yields none. */
  lemma TreeHashNone(sha1: seq<Byte> -> Digest, children: seq<Entry>)
    ensures TreeHash(sha1, children).None?
            <==> forall e | e in children :: e.name == GitDir || (e.Dir? && TreeHash(sha1, e.children).None?)
  {
    var sorted := SortEntries(children);
    PayloadLength(Records(sha1, sorted));
    RecordsEmpty(sha1, sorted);
    assert forall e :: e in sorted <==> e in children by {
      forall e ensures e in sorted <==> e in children {
        assert e in sorted <==> e in multiset(sorted);
        assert e in children <==> e in multiset(children);
      }
    }
  }

  /** The tree does not depend on the order in which `read_dir` listed
      the directory. */
  lemma TreeHashIgnoresListingOrder(sha1: seq<Byte> -> Digest, a: seq<Entry>, b: seq<Entry>)
    requires WellNamed(a) && multiset(a) == multiset(b)
    ensures TreePayload(sha1, a) == TreePayload(sha1, b)
    ensures TreeHash(sha1, a) == TreeHash(sha1, b)
  {
    SortIgnoresListingOrder(a, b);
  }

  // ---------------------------------------------------------------------
  // The recursion itself

  /** Objects stored before a step that writes only true objects and
      loses nothing but the staging file are still stored after it. */
  lemma StillStored(sha1: seq<Byte> -> Digest, recs: seq<Record>, before: Files, after: Files)
    requires forall rec | rec in recs :: HoldsObject(sha1, before, rec.hash)
    requires WritesTrueObjects(sha1, before, after) && before.Keys - {Temporary} <= after.Keys
    ensures forall rec | rec in recs :: HoldsObject(sha1, after, rec.hash)
  {
    forall rec | rec in recs ensures HoldsObject(sha1, after, rec.hash) {
      StillHolds(sha1, rec.hash, before, after);
    }
  }

  /** One more entry of the listing adds its record, if any, to the records
      and its bytes to the payload. */
  lemma RecordsStep(sha1: seq<Byte> -> Digest, es: seq<Entry>, i: nat)
    requires i < |es|
    ensures RecordOf(sha1, es[i]).None? ==> Records(sha1, es[..i + 1]) == Records(sha1, es[..i])
    ensures RecordOf(sha1, es[i]).Some? ==>
      && Records(sha1, es[..i + 1]) == Records(sha1, es[..i]) + [RecordOf(sha1, es[i]).value]
      && Payload(Records(sha1, es[..i + 1]))
         == Payload(Records(sha1, es[..i])) + RecordBytes(RecordOf(sha1, es[i]).value)
  {
    assert es[..i + 1] == es[..i] + [es[i]];
    RecordsSnoc(sha1, es[..i], es[i]);
    var rec := RecordOf(sha1, es[i]);
    if rec.Some? {
      PayloadSnoc(Records(sha1, es[..i]), rec.value);
    } else {
      assert Records(sha1, es[..i]) + [] == Records(sha1, es[..i]);
    }
  }

  /** `write_tree_for`: sort the listing, append the records of its
      entries, and store the tree unless the payload is empty. Files and
      subtrees go through the store's staging file, which is the only path
      that may disappear. Every object a stored tree refers to is in the
      store afterwards. */
  method WriteTreeFor(store: ObjectStore, children: seq<Entry>) returns (r: Option<Digest>)
    modifies store
    ensures r == TreeHash(store.sha1, children)
    ensures r.Some? ==>
      DigestPath(r.value) in store.files
      && store.files[DigestPath(r.value)] == Encode(Tree, TreePayload(store.sha1, children))
    ensures r.Some? ==> HoldsObject(store.sha1, store.files, r.value)
    ensures forall rec | rec in Records(store.sha1, SortEntries(children)) :: HoldsObject(store.sha1, store.files, rec.hash)
    ensures old(store.files).Keys - {Temporary} <= store.files.Keys
    ensures KeepsOtherFiles(old(store.files), store.files) && OnlyFanOutDirsAdded(old(store.dirs), store.dirs)
    ensures WritesTrueObjects(store.sha1, old(store.files), store.files)
    decreases SizeOf(children), 2
  {
    var entries := SortEntries(children);
    var treeObject := WriteRecords(store, entries);
    if treeObject == [] {
      return None;
    }
    ghost var before, beforeDirs := store.files, store.dirs;
    var d := store.Put(Tree, treeObject);
    StillStored(store.sha1, Records(store.sha1, entries), before, store.files);
    KeepsOtherFilesTransitive(old(store.files), before, store.files);
    WritesTrueObjectsTransitive(store.sha1, old(store.files), before, store.files);
    OnlyFanOutDirsAddedTransitive(old(store.dirs), beforeDirs, store.dirs);
    r := Some(d);
  }

  /** The `for` loop of `write_tree_for` over the sorted entries: each turn
      appends the entry's record, if it has one, to `tree_object`. */
  method WriteRecords(store: ObjectStore, entries: seq<Entry>) returns (treeObject: seq<Byte>)
    modifies store
    ensures treeObject == Payload(Records(store.sha1, entries))
    ensures forall rec | rec in Records(store.sha1, entries) :: HoldsObject(store.sha1, store.files, rec.hash)
    ensures old(store.files).Keys - {Temporary} <= store.files.Keys
    ensures KeepsOtherFiles(old(store.files), store.files) && OnlyFanOutDirsAdded(old(store.dirs), store.dirs)
    ensures WritesTrueObjects(store.sha1, old(store.files), store.files)
    decreases SizeOf(entries), 1
  {
    treeObject := [];
    for i := 0 to |entries|
      invariant treeObject == Payload(Records(store.sha1, entries[..i]))
      invariant forall rec | rec in Records(store.sha1, entries[..i]) :: HoldsObject(store.sha1, store.files, rec.hash)
      invariant old(store.files).Keys - {Temporary} <= store.files.Keys
      invariant KeepsOtherFiles(old(store.files), store.files) && OnlyFanOutDirsAdded(old(store.dirs), store.dirs)
      invariant WritesTrueObjects(store.sha1, old(store.files), store.files)
    {
      ghost var done := Records(store.sha1, entries[..i]);
      ghost var before, beforeDirs := store.files, store.dirs;
      SizeOfMember(entries, i);
      var rec := WriteEntry(store, entries[i]);
      StillStored(store.sha1, done, before, store.files);
      KeepsOtherFilesTransitive(old(store.files), before, store.files);
      WritesTrueObjectsTransitive(store.sha1, old(store.files), before, store.files);
      OnlyFanOutDirsAddedTransitive(old(store.dirs), beforeDirs, store.dirs);
      RecordsStep(store.sha1, entries, i);
      if rec.Some? {
        var record := rec.value.mode + [SPACE] + rec.value.name + [NUL] + rec.value.hash;
        treeObject := treeObject + record;
      }
    }
    assert entries[..|entries|] == entries;
  }

  /** One turn of `write_tree_for`'s loop: skip ".git", pick the mode, and
      get the hash by storing a file as a blob or by recursing into a
      directory (which is skipped when it yields nothing). */
  method WriteEntry(store: ObjectStore, e: Entry) returns (rec: Option<Record>)
    modifies store
    ensures rec == RecordOf(store.sha1, e)
    ensures rec.Some? ==> HoldsObject(store.sha1, store.files, rec.value.hash)
    ensures rec.Some? && e.File? ==> store.files[DigestPath(rec.value.hash)] == Encode(Blob, e.content)
    ensures rec.Some? && e.Dir? ==>
      store.files[DigestPath(rec.value.hash)] == Encode(Tree, TreePayload(store.sha1, e.children))
    ensures old(store.files).Keys - {Temporary} <= store.files.Keys
    ensures KeepsOtherFiles(old(store.files), store.files) && OnlyFanOutDirsAdded(old(store.dirs), store.dirs)
    ensures WritesTrueObjects(store.sha1, old(store.files), store.files)
    decreases Size(e), 0
  {
    if e.name == GitDir {
      return None;
    }
    var mode := ModeOf(e);
    match e
    case Dir(name, children) =>
      var sub := WriteTreeFor(store, children);
      if sub.None? {
        return None;
      }
      rec := Some(Record(mode, name, sub.value));
    case File(name, _, _, content) =>
      var hash := store.Put(Blob, content);
      rec := Some(Record(mode, name, hash));
  }

  /** `invoke`: the tree of the working directory, whose hex digest is
      printed; a directory that yields no tree is an error. */
  method Invoke(store: ObjectStore, root: seq<Entry>) returns (r: Result<seq<Byte>>)
    modifies store
    ensures r.Err? <==> TreeHash(store.sha1, root).None?
    ensures r.Err? ==> r.error == EmptyTree
    ensures r.Ok? ==> r.value == Hex(TreeHash(store.sha1, root).value)
    ensures r.Ok? && |TreePayload(store.sha1, root)| < U64_LIMIT ==>
      ReadObject(store.files, r.value)
      == Ok(Object(Tree, |TreePayload(store.sha1, root)|, TreePayload(store.sha1, root)))
    ensures forall rec | rec in Records(store.sha1, SortEntries(root)) :: HoldsObject(store.sha1, store.files, rec.hash)
    ensures old(store.files).Keys - {Temporary} <= store.files.Keys
    ensures KeepsOtherFiles(old(store.files), store.files) && OnlyFanOutDirsAdded(old(store.dirs), store.dirs)
    ensures WritesTrueObjects(store.sha1, old(store.files), store.files)
  {
    var h := WriteTreeFor(store, root);
    if h.None? {
      return Err(EmptyTree);
    }
    if |TreePayload(store.sha1, root)| < U64_LIMIT {
      ReadStored(store.files, h.value, Tree, TreePayload(store.sha1, root));
    }
    r := Ok(Hex(h.value));
  }
}
